=== FILE: README.md ===
# CineScope client logic in Dafny

CineScope is a React single-page application for browsing movies from a movie-metadata API. This project models its few pieces of sequential logic as immutable Dafny datatypes and pure transition functions, and proves properties of them:

- **API client** (`api_client.dfy`, module `ApiClient`). A response cache maps a request key to a payload and the time it was stored. A request is answered from the cache only while the entry is strictly younger than five minutes. Otherwise it goes to the network, and a success overwrites the entry. A failure is re-raised unchanged and stores nothing. Stale entries are never purged; only `clearCache` empties the cache. The image-URL helpers build `base/size/path`, fall back to a placeholder, and record every URL they build in a set.
- **Category feed** (`movie_category.dfy`, module `MovieCategory`). Each category row keeps its movies, its page counters and two flags. An in-flight guard blocks overlapping fetches. A reset load replaces the movies and a normal load appends. Load-more asks for the next page only while pages remain. A failed fetch keeps the data. `MovieCategory_old.tsx` has the same logic on the same lines, so one model serves both files.
- **Search page** (`search_page.dfy`, module `SearchPage`). It uses the same replace/append pagination behind a blank-query guard, plus the `hasSearched` flag, `clearSearch`, and the effect that follows the URL's `q` parameter.
- **Demo authentication** (`auth_context.dfy`, `protected_route.dfy`). Login succeeds only on the exact demo credentials. The signed-in user is kept in local storage, modelled as a map. The route gate chooses between a spinner, the login page and the protected page.
- **Display helpers** (`home_page.dfy`, `movie_details_page.dfy`, `hero_section.dfy`):
  - the home page's category filter and hero visibility;
  - the "Xh Ym" runtime label, the budget/revenue disclosure, the IMDB and homepage links and the production-company section;
  - the featured-movie pick, the two-word title and the 150-character overview. Lines 1–112 of `HeroSection_old.tsx` are the same code as `HeroSection_new.tsx`.

`common.dfy` holds `Option`/`Result`. `text.dfy` stands in for the JavaScript string built-ins that the helpers use: integer interpolation, `split`/`join` on one character, and `trim`. Integer interpolation and split/join come with round-trip lemmas; `trim` comes with a characterising specification and idempotence.

Modelling choices:
- Clock readings are integer parameters. The network's answer is an input value.
- `Math.random()` is a real parameter in [0, 1).
- Each React handler or effect is one atomic step. A category fetch is split into `BeginFetch` and `CompleteFetch`, so the in-flight guard can be stated.

Behaviour of the code worth noting:
- The cache key keeps the parameters in the order given. It does not sort them.
- Errors are not classified into kinds. 401 and 429 only add a log line, and the same error is re-raised.
- A reset load does not clear the movies first. A failed reset keeps the old movies.
- A reset load is skipped entirely if another fetch is in flight.
- The current page only increases under load-more. A reset goes back to page 1.

## Model

| member | source | states |
|---|---|---|
| ApiClient.ParseCacheKey | src/lib/api-client.ts:30 | A cache key reads back as the url and the ordered parameter list it was built from, so the key loses nothing about the request |
| ApiClient.ParseSerialize | src/lib/api-client.ts:30 | The serialised parameter string reads back as the same parameters in the same order |
| ApiClient.CacheKeyInjective | src/lib/api-client.ts:49 | The request and response interceptors use one key function. Two requests share an entry exactly when they have the same url and the same parameters in the same order |
| ApiClient.ParamOrderMatters | src/lib/api-client.ts:30 | For any url without '?' and any two different parameters, the two orders give different keys, because parameters are not sorted |
| ApiClient.Lookup | src/lib/api-client.ts:31-33 | A lookup hits exactly when an entry exists and `now - storedAt < 300000`. A hit yields the stored payload |
| ApiClient.FreshnessBoundary | src/lib/api-client.ts:33 | An entry stored at t is served at t+age exactly when age < 300000. At exactly 300000 ms it is a miss |
| ApiClient.Store | src/lib/api-client.ts:49-53 | Storing sets the key's entry to (payload, now), overwriting any earlier one. Every other entry is unchanged and no key disappears |
| ApiClient.RequestInterceptor | src/lib/api-client.ts:29-44 | The request interceptor answers from the cache exactly when the lookup hits, and then with the stored payload. Otherwise it sends the configuration unchanged |
| ApiClient.Get | src/lib/api-client.ts:29-76 | On a hit: the stored payload, no request, state unchanged. On a miss: one request. A success is returned and stored at the response time; a failure is returned unchanged and stores nothing |
| ApiClient.RepeatWithinWindowHits | src/lib/api-client.ts:31-39 | A request repeated less than five minutes after a successful response returns the same payload without a request and changes nothing |
| ApiClient.RepeatAfterWindowRefetches | src/lib/api-client.ts:47-53 | Once five minutes have passed, the same request goes to the network, and the new success overwrites the entry |
| ApiClient.FailureNotCached | src/lib/api-client.ts:58-75 | A failed request, such as a 429, surfaces the same error and leaves no entry for its key |
| ApiClient.GetNeverShrinks | src/lib/api-client.ts:31-53 | Requests never remove cache entries, stale ones included, and never touch the image set |
| ApiClient.ClearCache | src/lib/api-client.ts:198-202 | `clearCache` empties both the response cache and the image set |
| ApiClient.GetCacheSize | src/lib/api-client.ts:204-209 | `getCacheSize` reports the number of cached keys and of recorded image URLs |
| ApiClient.ClearCacheForgets | src/lib/api-client.ts:198-209 | After `clearCache` both sizes are 0, and any request goes to the network |
| ApiClient.PageKeysDistinct | src/lib/api-client.ts:159-176 | Two list-endpoint page requests share a cache key exactly when path and page are equal |
| ApiClient.GetImageUrl | src/lib/api-client.ts:135-147 | A null or empty path gives "/placeholder.jpg" and records nothing. Otherwise the result is IMAGE_BASE_URL + "/" + size + path, and it is added to the image set |
| ApiClient.ImageUrlRecoversPath | src/lib/api-client.ts:137 | An image URL starts with the base URL and "/", is never the placeholder, and ends with the path, which can be read back from it |
| ApiClient.GetImageUrlIdempotent | src/lib/api-client.ts:140-144 | Asking twice for the same image gives the same URL and leaves the image set as the first call left it |
| ApiClient.PreloadImage | src/lib/api-client.ts:149-154 | A null or empty path leaves the image set unchanged. Otherwise exactly the image URL of the path is added to it, and nothing else |
| ApiClient.PreloadMatchesGetImageUrl | src/lib/api-client.ts:149-154 | `preloadImage` records exactly what `getImageUrl` would. It is a no-op for a null path or an already recorded URL, so a second preload changes nothing |
| MovieCategory.FetcherDispatch | src/components/MovieCategory.tsx:32-50 | trending, popular, top_rated, now_playing and upcoming each select their own fetcher. Any other string selects popular |
| MovieCategory.FeedRequestsNeverCollide | src/components/MovieCategory.tsx:32-50 | Two feed page requests share a cache entry exactly when they are the same request: the same page of the same endpoint |
| MovieCategory.FetchMovies | src/components/MovieCategory.tsx:26-68 | While loading: no change and no request. Otherwise one request for the page, after which loading is false and the initial load is marked done. A success with reset replaces the movies; without reset it appends them in order. A success sets the current page to the requested one and the total from the response. A failure keeps movies and both counters |
| MovieCategory.InitialLoad | src/components/MovieCategory.tsx:71-73 | While a fetch is in flight nothing happens. Otherwise the endpoint effect requests page 1 of the endpoint's fetcher with reset. On success the movies are exactly page 1's results and the current page is 1 |
| MovieCategory.LoadMore | src/components/MovieCategory.tsx:76-80 | A request is made exactly when `inView && hasInitialLoad && currentPage < totalPages && !isLoading`, and it asks for `currentPage + 1`. Otherwise nothing changes. The page never decreases and no movie is dropped |
| MovieCategory.InFlightGuard | src/components/MovieCategory_old.tsx:27-29 | Once a fetch has begun, a second fetch and a load-more are both no-ops with no request |
| MovieCategory.RetryAfterFailure | src/components/MovieCategory_old.tsx:62-67 | A failed load-more keeps the movies and the page, and the next load-more asks for the same page again |
| MovieCategory.ScrollMonotone | src/components/MovieCategory_old.tsx:76-80 | Over any sequence of load-more steps, successes and failures alike, the page never decreases and earlier movies stay as a prefix |
| MovieCategory.ScrollAppendsPages | src/components/MovieCategory.tsx:55-61 | Successive successful pages, while pages remain, are appended in order. Each one advances the page by one |
| MovieCategory.PopularScenario | src/components/MovieCategory.tsx:26-80 | Popular: page 1 has 20 movies out of 5 pages; four more loads of 20 give 100 movies on page 5; a fifth load-more does nothing |
| SearchPage.SearchMovies | src/pages/SearchPage.tsx:16-38 | A blank query changes nothing. Otherwise the untrimmed query is requested with no in-flight guard. Reset replaces the results and otherwise they are appended. A success sets page, total and `hasSearched`. A failure only clears `isLoading` |
| SearchPage.HandleSearch | src/pages/SearchPage.tsx:40-46 | A blank box does nothing. Otherwise the URL's `q` and the request both use the trimmed text, page 1, while the box keeps its untrimmed text and loading ends. On success page 1's results replace the old ones, the page is 1, the total comes from the response and `hasSearched` is true. On failure only `q` and the loading flag change |
| SearchPage.ClearSearch | src/pages/SearchPage.tsx:48-53 | The box, the results and `q` are emptied and `hasSearched` becomes false. Page counters and the loading flag are kept |
| SearchPage.LoadMore | src/pages/SearchPage.tsx:55-59 | A request is made exactly when `currentPage < totalPages`, nothing is loading and the box is not blank. It asks for `currentPage + 1` of the box's text. On success the page's results are appended after the existing ones, the page becomes `currentPage + 1` and the total comes from the response. A failure only ends loading |
| SearchPage.UrlEffect | src/pages/SearchPage.tsx:61-68 | A search is made exactly when `q` is present, not blank and differs from the box. It asks for page 1 of `q`, which is copied into the box. On success the results are replaced by page 1, the page is 1, the total comes from the response and `hasSearched` is true. A failure only copies `q` and ends loading. A blank `q` that differs is copied but not searched; otherwise nothing changes |
| SearchPage.SearchRequestsNeverCollide | src/lib/api-client.ts:183-186 | Two search requests share a cache entry exactly when they ask for the same page of the same query text |
| SearchPage.ClearedSearchLoadsNothing | src/pages/SearchPage.tsx:48-59 | After `clearSearch`, load-more and the URL effect do nothing, and clearing again changes nothing |
| SearchPage.PaddedQuerySearchesTwice | src/pages/SearchPage.tsx:40-68 | When the submit changes the URL's `q`, a query with surrounding whitespace makes the URL effect search page 1 a second time. An already trimmed query is searched once |
| SearchPage.LoadMoreFollowsTypedText | src/pages/SearchPage.tsx:55-59 | As written, load-more asks for the next page of whatever is typed in the box, even if it was never submitted |
| SearchPage.MountWithQueryNeverSearches | src/pages/SearchPage.tsx:61-68 | As written, arriving with a `q` parameter makes no request and leaves `hasSearched` false |
| SearchPage.MountMatrixExample | src/pages/SearchPage.tsx:9 | As written, `/search?q=matrix` makes no request |
| SearchPage.MountAndSearch | src/pages/SearchPage.tsx:62-67 | Corrected: arriving with a non-blank `q` requests page 1 of it. On success the results are shown and `hasSearched` is true |
| SearchPage.LoadMoreShownQuery | src/pages/SearchPage.tsx:57 | Corrected: load-more asks for the next page of the query whose results are shown (the URL's `q`). On success that page is appended and the page advances by one |
| SearchPage.LoadMoreShownQueryIgnoresTyping | src/pages/SearchPage.tsx:56-58 | Corrected: typing in the box does not change what load-more asks for |
| AuthContext.RestoreSession | src/contexts/AuthContext.tsx:41-47 | The mount effect adopts the stored user when the key is present, keeps the current user otherwise, and ends loading |
| AuthContext.OnMount | src/contexts/AuthContext.tsx:37-47 | After mounting, the user is authenticated exactly when "cinescope_user" is in storage, and is the stored user. Loading is false |
| AuthContext.Login | src/contexts/AuthContext.tsx:49-65 | Login returns true exactly on the demo email and password, compared character for character. On success the user becomes DEMO_USER and is stored under the key. On failure user and storage are unchanged. Afterwards `isLoading` is false |
| AuthContext.Logout | src/contexts/AuthContext.tsx:67-70 | Logout clears the user and removes the storage key only. The loading flag is untouched |
| AuthContext.LoginSurvivesReload | src/contexts/AuthContext.tsx:56-58 | After a successful login, a reload restores the demo user from storage |
| AuthContext.LogoutSurvivesReload | src/contexts/AuthContext.tsx:69 | After logout, a reload comes back signed out |
| AuthContext.LogoutIdempotent | src/contexts/AuthContext.tsx:67-70 | Logging out twice is the same as logging out once |
| AuthContext.FailedLoginKeepsSession | src/contexts/AuthContext.tsx:63-64 | A failed login returns false and changes nothing but the loading flag, so a signed-in user stays signed in |
| AuthContext.NearMissesRejected | src/contexts/AuthContext.tsx:56 | Credentials with extra whitespace or different capitalisation are rejected |
| ProtectedRoute.Gate | src/components/ProtectedRoute.tsx:12-27 | While loading the spinner shows, whatever the auth state. The children show exactly when authenticated and not loading. The login page shows exactly when neither |
| ProtectedRoute.GateThroughSession | src/components/ProtectedRoute.tsx:10-27 | The spinner shows before the mount effect. After mounting, the children show exactly when storage held a user. A successful login opens the gate, and logout closes it once loading is over |
| HomePage.FilterById | src/pages/HomePage.tsx:20 | The filtered list holds exactly the categories whose id equals the parameter |
| HomePage.FilterIsSubsequence | src/pages/HomePage.tsx:20 | Filtering keeps the remaining categories in their original order |
| HomePage.DisplayAllWithoutParam | src/pages/HomePage.tsx:19-21 | With no `category` parameter or an empty one, all five categories show in the listed order |
| HomePage.DisplayKnownId | src/pages/HomePage.tsx:19-20 | A parameter equal to a known id shows exactly that one category |
| HomePage.DisplayUnknownId | src/pages/HomePage.tsx:19-20 | A parameter that is no category's id shows an empty list |
| HomePage.DisplayIsSubsequence | src/pages/HomePage.tsx:19-21 | Whatever the parameter, the list shown is an order-preserving subsequence of the category list |
| HomePage.HeroIffFullList | src/pages/HomePage.tsx:26 | The hero shows exactly when the full category list does, that is, when the parameter is absent or empty |
| HomePage.CategoriesUseOwnFetcher | src/pages/HomePage.tsx:10-16 | Every category shown names an endpoint that selects its own fetcher, never the popular fallback |
| MovieDetailsPage.RuntimeUnknown | src/pages/MovieDetailsPage.tsx:69 | A null or 0 runtime shows "N/A", which never reads back as a runtime |
| MovieDetailsPage.RuntimeLabelRoundTrip | src/pages/MovieDetailsPage.tsx:69 | For r > 0 the label is "{h}h {m}m" with m in 0..59 and h*60 + m = r, and it reads back as r |
| MovieDetailsPage.AmountLabel | src/pages/MovieDetailsPage.tsx:197 | An amount is shown exactly when it is > 0, and it shows that amount. Otherwise "Not disclosed" |
| MovieDetailsPage.MoneyCells | src/pages/MovieDetailsPage.tsx:194-206 | The budget cell shows the budget exactly when it is > 0, and the revenue cell shows the revenue exactly when it is > 0. Otherwise each shows "Not disclosed" |
| MovieDetailsPage.MoneyCellsIndependent | src/pages/MovieDetailsPage.tsx:194-206 | The budget cell depends only on the budget and the revenue cell only on the revenue |
| MovieDetailsPage.ImdbLink | src/pages/MovieDetailsPage.tsx:222-226 | The IMDB link exists exactly for a non-null, non-empty imdb_id |
| MovieDetailsPage.ImdbLinkRecoversId | src/pages/MovieDetailsPage.tsx:226 | The IMDB link is "https://www.imdb.com/title/" followed by the id, which can be read back from it |
| MovieDetailsPage.HomepageLink | src/pages/MovieDetailsPage.tsx:208-212 | The official-site link exists exactly for a non-null, non-empty homepage, and it is that homepage |
| MovieDetailsPage.CompanyBadge | src/pages/MovieDetailsPage.tsx:177-185 | A company with a logo path shows its w200 image URL, which is recorded. Otherwise it shows its name and records nothing |
| MovieDetailsPage.Badges | src/pages/MovieDetailsPage.tsx:175-187 | Mapping over the companies gives one badge per company, in order. The image set grows by exactly the w200 URLs of the companies that have a logo |
| MovieDetailsPage.ProductionSection | src/pages/MovieDetailsPage.tsx:171-190 | A null or empty company list renders no section and records nothing. Otherwise the section has one badge per company, in order, and the image set grows by exactly their w200 logo URLs |
| HeroSection.FeaturedIndex | src/components/HeroSection_new.tsx:18 | For any draw in [0,1) the index lies in [0, min(5, count)) |
| HeroSection.DrawIndexInRange | src/components/HeroSection_old.tsx:18 | A draw in [0,1) scaled by n and rounded down is a valid index below n |
| HeroSection.EveryCandidateReachable | src/components/HeroSection_old.tsx:17-18 | Each of the first min(5, count) indices is chosen by some draw in [0,1) |
| HeroSection.PickFeatured | src/components/HeroSection_new.tsx:16-19 | An empty list features nothing. Otherwise the pick is one of the first five movies |
| HeroSection.LoadFeatured | src/components/HeroSection_new.tsx:12-26 | Loading always ends. A failed fetch or an empty page features nothing new. Otherwise one of the first five trending movies is featured |
| HeroSection.DisplayTitleSpec | src/components/HeroSection_new.tsx:60 | The shown title is the original cut before its second space. It is a prefix of the title with at most one space, and a title with at most one space is shown whole |
| HeroSection.DisplayTitleExample | src/components/HeroSection_old.tsx:60 | "A B C" is shown as "A B" |
| HeroSection.ShortOverview | src/components/HeroSection_new.tsx:65-67 | An overview of at most 150 characters is unchanged. A longer one becomes its first 150 characters followed by "...", 153 in all |
| HeroSection.ShortOverviewIdempotent | src/components/HeroSection_old.tsx:65-67 | Shortening an already shortened overview changes nothing |
| HeroSection.BannerAfterMount | src/components/HeroSection_new.tsx:11-37 | The banner starts as a spinner. After the mount effect it shows a movie exactly when trending page 1 arrived with at least one movie |
| Text.TrimSpec | src/pages/SearchPage.tsx:17 | `trim` yields a contiguous slice of the input, and only whitespace is cut off before and after it. The slice neither starts nor ends with whitespace. It is empty exactly when the input is all whitespace, which is the blank-query test |

## Left out

- The axios transport, its 10-second timeout, and the way a cache hit is signalled by rejecting with a `__cached` marker. The interceptor pair is modelled as one step: look up, else fetch and store.
- Console logging, including the 401/429 messages, the API-key constant and its startup check.
- The `api_key` default parameter that axios merges into every request. It is the same on every request, so it cannot make two keys equal or unequal, and parameter lists are modelled without it.
- The exact `URLSearchParams` encoding. `ApiClient.Serialize` escapes only `%`, `&` and `=`. That is enough for it to be injective, which is the only property the cache relies on.
- The double `encodeURIComponent` applied to search queries. The search parameter carries the query text as given.
- The `getDetails`, `discover` and `getGenres` endpoints as separate functions. They go through `ApiClient.Get` like every other request.
- Environment overrides of the base URLs. The defaults are used.
- React's dependency comparison for effects. `SearchPage.UrlEffect` is an explicit step that a caller applies after `q` changed; `PaddedQuerySearchesTwice` therefore requires that the submit changed `q`.
- The `"w500"` default of the `size` argument of `getImageUrl` and `preloadImage`. Every call in the modelled pages passes a size explicitly.
- The browser's `new Image()` download triggered by `getImageUrl` and `preloadImage`. Only the recording in the image set is modelled.
- Real `localStorage` and JSON parse/stringify. Storage is a map holding `User` values, so malformed stored JSON is not modelled.
- The one-second `setTimeout` in `login`, and with it the spinner the gate shows while a login is in flight. Login is one atomic step.
- React scheduling, stale closures, async interleavings and cancellation on unmount. Apart from the fetch begin/complete split, each handler or effect is one atomic step.
- Floating-point display: `vote_average.toFixed(1)`, `toLocaleString` on budget and revenue (the model shows the number itself) and `new Date(...).getFullYear()`. Runtimes are integers.
- MovieDetailsPage.RuntimeLabelRoundTrip: the round trip is claimed only for positive runtimes. The model renders negative values as JavaScript would (for example "-2h -30m"), but such labels do not read back, and the API never sends them.
- HeroSection.ShortOverview: counts characters as Unicode scalar values. JavaScript's `length` and `substring` count UTF-16 code units, so text containing characters outside the Basic Multilingual Plane is cut at a different place.
- HeroSection.DisplayTitleSpec: counts characters as Unicode scalar values, for the same reason. Splitting on a space is unaffected.
- The details page's own fetch (`parseInt(id)`, loading and error views) and the category row's skeleton and trigger markup: these are presentation with no further logic.
- `MovieCategory_new.tsx`, which depends on a hook that is not part of this model and on scroll geometry.
- Lines 113–198 of `HeroSection_old.tsx`, which are unreachable leftover code after the export.
- Purely presentational files: `MovieCard`, `Navigation`, `LoginPage` (its only logic is calling `login`), `Footer`, `PremiumPage`, `NotFoundPage`, `App`, `main`.

## Findings

| source | as written | input that shows it | evidently intended | confidence | as-written member | corrected member |
|---|---|---|---|---|---|---|
| src/pages/SearchPage.tsx:61-68 | The URL effect searches only when `q` differs from the box, but the box is initialised from `q` (line 9), so on arrival they are equal | Opening `/search?q=matrix`, as the old navigation bar's search does | A `q` present on arrival is searched from page 1 | medium, not executed | SearchPage.MountWithQueryNeverSearches | SearchPage.MountAndSearch |
| src/pages/SearchPage.tsx:55-59 | Load-more requests the next page of the text currently in the box | Search "matrix", type "alien" without submitting, press Load More: page 2 of "alien" is appended under the header for "matrix" | The next page of the query whose results are shown | medium, not executed | SearchPage.LoadMoreFollowsTypedText | SearchPage.LoadMoreShownQuery |

=== FILE: api_client.dfy ===
/**
  The API client of src/lib/api-client.ts: the response types of the movie
  metadata API, the in-memory response cache driven by the request and response
  interceptors, the image-URL helpers with their set of recorded URLs, and the
  cache-management utilities.

  The interceptor pair is modelled as one atomic call `Get`: look the request up,
  and on a miss take the network's answer (an input value) and store it if it
  succeeded. Clock readings are integer parameters (milliseconds).
 */
module ApiClient {
  import opened Common
  import opened Text

  // ---------------------------------------------------------------------------
  // Response types
  // ---------------------------------------------------------------------------

  datatype Genre = Genre(id: int, name: string)

  /** The subset of a movie record the modelled logic reads. */
  datatype Movie = Movie(
    id: int,
    title: string,
    posterPath: Option<string>,
    backdropPath: Option<string>,
    overview: string,
    releaseDate: string)

  datatype Company = Company(id: int, logoPath: Option<string>, name: string, originCountry: string)

  datatype MovieDetails = MovieDetails(
    movie: Movie,
    genres: seq<Genre>,
    runtime: Option<int>,
    budget: int,
    revenue: int,
    homepage: Option<string>,
    imdbId: Option<string>,
    productionCompanies: Option<seq<Company>>)

  datatype MovieListResponse = MovieListResponse(
    page: int,
    results: seq<Movie>,
    totalPages: int,
    totalResults: int)

  /** What a cached response body can be: one of the shapes `movieApi` requests. */
  datatype Payload =
    | ListPayload(list: MovieListResponse)
    | DetailsPayload(details: MovieDetails)
    | GenresPayload(genres: seq<Genre>)

  /** A rejected request: the HTTP status when a response arrived, and the message. */
  datatype HttpError = HttpError(status: Option<int>, message: string)

  // ---------------------------------------------------------------------------
  // Constants
  // ---------------------------------------------------------------------------

  const ImageBaseUrl: string := "https://image.tmdb.org/t/p"

  /** Five minutes, in milliseconds. */
  const CacheDuration: int := 5 * 60 * 1000

  const Placeholder: string := "/placeholder.jpg"

  const TrendingPath: string := "/trending/movie/day"
  const PopularPath: string := "/movie/popular"
  const TopRatedPath: string := "/movie/top_rated"
  const NowPlayingPath: string := "/movie/now_playing"
  const UpcomingPath: string := "/movie/upcoming"
  const SearchPath: string := "/search/movie"

  // ---------------------------------------------------------------------------
  // Request configuration and the cache key
  // ---------------------------------------------------------------------------

  datatype Param = Param(name: string, value: string)

  /** The part of an axios request configuration the cache key is built from. */
  datatype RequestConfig = RequestConfig(url: string, params: seq<Param>)

  /** A URL path that cannot be confused with the query string after it. */
  predicate WellFormedUrl(url: string) {
    '?' !in url
  }

  function EscapeChar(c: char): string {
    if c == '%' then "%25" else if c == '&' then "%26" else if c == '=' then "%3D" else [c]
  }

  /** Percent-escapes the characters that delimit a query string. */
  function Escape(s: string): (r: string)
    ensures '&' !in r && '=' !in r
  {
    if |s| == 0 then "" else EscapeChar(s[0]) + Escape(s[1..])
  }

  function Unescape(s: string): string {
    if |s| == 0 then ""
    else if |s| >= 3 && s[0] == '%' && s[1..3] == "25" then "%" + Unescape(s[3..])
    else if |s| >= 3 && s[0] == '%' && s[1..3] == "26" then "&" + Unescape(s[3..])
    else if |s| >= 3 && s[0] == '%' && s[1..3] == "3D" then "=" + Unescape(s[3..])
    else [s[0]] + Unescape(s[1..])
  }

  function EncodeParam(p: Param): (r: string)
    ensures '&' !in r
  {
    Escape(p.name) + "=" + Escape(p.value)
  }

  function EncodeParams(ps: seq<Param>): (r: seq<string>)
    ensures |r| == |ps|
    ensures forall i :: 0 <= i < |ps| ==> r[i] == EncodeParam(ps[i])
  {
    if |ps| == 0 then [] else [EncodeParam(ps[0])] + EncodeParams(ps[1..])
  }

  /**
    `new URLSearchParams(params).toString()`: `name=value` pairs in the order
    given, joined by `&`. The parameters are not sorted.
   */
  function Serialize(ps: seq<Param>): string {
    Join(EncodeParams(ps), '&')
  }

  function DecodeParam(piece: string): Param {
    var kv := Split(piece, '=');
    Param(Unescape(kv[0]), if |kv| >= 2 then Unescape(kv[1]) else "")
  }

  function DecodeParams(pieces: seq<string>): (r: seq<Param>)
    ensures |r| == |pieces|
  {
    if |pieces| == 0 then [] else [DecodeParam(pieces[0])] + DecodeParams(pieces[1..])
  }

  function ParseQuery(q: string): seq<Param> {
    if q == "" then [] else DecodeParams(Split(q, '&'))
  }

  /** The key both interceptors compute: the url, `?`, then the serialised parameters. */
  function CacheKey(config: RequestConfig): string {
    config.url + "?" + Serialize(config.params)
  }

  /** Reads a cache key back into the configuration it was built from. */
  function ParseKey(key: string): Option<RequestConfig> {
    var url := Split(key, '?')[0];
    if |url| < |key| then Some(RequestConfig(url, ParseQuery(key[|url| + 1..]))) else None
  }

  lemma {:induction false} UnescapeEscape(s: string)
    ensures Unescape(Escape(s)) == s
    decreases |s|
  {
    if |s| > 0 {
      UnescapeEscape(s[1..]);
      var e := Escape(s);
      assert e == EscapeChar(s[0]) + Escape(s[1..]);
      if s[0] == '%' || s[0] == '&' || s[0] == '=' {
        assert e[3..] == Escape(s[1..]);
      } else {
        assert e[1..] == Escape(s[1..]);
      }
      assert s == [s[0]] + s[1..];
    }
  }

  lemma DecodeEncodeParam(p: Param)
    ensures DecodeParam(EncodeParam(p)) == p
  {
    var n := Escape(p.name);
    var v := Escape(p.value);
    SplitAfterPiece(n, v, '=');
    SplitWithoutSeparator(v, '=');
    assert Split(EncodeParam(p), '=') == [n, v];
    UnescapeEscape(p.name);
    UnescapeEscape(p.value);
  }

  lemma {:induction false} DecodeEncodeParams(ps: seq<Param>)
    ensures DecodeParams(EncodeParams(ps)) == ps
    decreases |ps|
  {
    if |ps| > 0 {
      DecodeEncodeParams(ps[1..]);
      DecodeEncodeParam(ps[0]);
      assert EncodeParams(ps)[1..] == EncodeParams(ps[1..]);
    }
  }

  lemma JoinStartsWithFirst(parts: seq<string>, sep: char)
    requires |parts| >= 1
    ensures parts[0] <= Join(parts, sep)
  {
  }

  /** The serialised parameters can be read back: serialisation loses nothing. */
  lemma ParseSerialize(ps: seq<Param>)
    ensures ParseQuery(Serialize(ps)) == ps
  {
    var pieces := EncodeParams(ps);
    if |ps| > 0 {
      JoinStartsWithFirst(pieces, '&');
      assert |pieces[0]| > 0;
      SplitJoin(pieces, '&');
      DecodeEncodeParams(ps);
    }
  }

  /** A cache key determines the request it was computed from. */
  lemma ParseCacheKey(config: RequestConfig)
    requires WellFormedUrl(config.url)
    ensures ParseKey(CacheKey(config)) == Some(config)
  {
    var key := CacheKey(config);
    SplitAfterPiece(config.url, Serialize(config.params), '?');
    assert key == config.url + ['?'] + Serialize(config.params);
    assert key[|config.url| + 1..] == Serialize(config.params);
    ParseSerialize(config.params);
  }

  /**
    Two requests share a cache entry only if they have the same url and the same
    parameters in the same order.
   */
  lemma CacheKeyInjective(c1: RequestConfig, c2: RequestConfig)
    requires WellFormedUrl(c1.url) && WellFormedUrl(c2.url)
    ensures CacheKey(c1) == CacheKey(c2) <==> c1 == c2
  {
    ParseCacheKey(c1);
    ParseCacheKey(c2);
  }

  /** Parameter order is part of the key: two different parameters in swapped order miss each other's entry. */
  lemma ParamOrderMatters(url: string, p1: Param, p2: Param)
    requires WellFormedUrl(url) && p1 != p2
    ensures CacheKey(RequestConfig(url, [p1, p2])) != CacheKey(RequestConfig(url, [p2, p1]))
  {
    CacheKeyInjective(RequestConfig(url, [p1, p2]), RequestConfig(url, [p2, p1]));
    assert [p1, p2][0] != [p2, p1][0];
  }

  // ---------------------------------------------------------------------------
  // Endpoint requests (movieApi)
  // ---------------------------------------------------------------------------

  /** `getPopular(page)`, `getTrending(page)`, …: a list path with one `page` parameter. */
  function PageConfig(path: string, page: int): RequestConfig {
    RequestConfig(path, [Param("page", IntToString(page))])
  }

  /** `search(query, page)`: the query parameter comes before the page parameter. */
  function SearchConfig(query: string, page: int): RequestConfig {
    RequestConfig(SearchPath, [Param("query", query), Param("page", IntToString(page))])
  }

  /** Pages of list endpoints never share a cache entry unless path and page agree. */
  lemma PageKeysDistinct(path1: string, page1: int, path2: string, page2: int)
    requires WellFormedUrl(path1) && WellFormedUrl(path2)
    ensures CacheKey(PageConfig(path1, page1)) == CacheKey(PageConfig(path2, page2))
        <==> path1 == path2 && page1 == page2
  {
    CacheKeyInjective(PageConfig(path1, page1), PageConfig(path2, page2));
    IntToStringInjective(page1, page2);
  }

  // ---------------------------------------------------------------------------
  // The response cache
  // ---------------------------------------------------------------------------

  datatype Entry = Entry(data: Payload, timestamp: int)

  /** The module-level state: the response cache and the set of recorded image URLs. */
  datatype ClientState = ClientState(cache: map<string, Entry>, images: set<string>)

  const EmptyState: ClientState := ClientState(map[], {})

  predicate IsFresh(e: Entry, now: int) {
    now - e.timestamp < CacheDuration
  }

  /** The request interceptor's test: an entry that exists and is younger than five minutes. */
  function Lookup(cache: map<string, Entry>, key: string, now: int): (r: Option<Payload>)
    ensures r.Some? <==> key in cache && IsFresh(cache[key], now)
    ensures r.Some? ==> r.value == cache[key].data
  {
    if key in cache && now - cache[key].timestamp < CacheDuration then Some(cache[key].data) else None
  }

  /** The response interceptor's store: overwrite the key's entry, keep every other. */
  function Store(cache: map<string, Entry>, key: string, data: Payload, now: int): (r: map<string, Entry>)
    ensures r.Keys == cache.Keys + {key}
    ensures r[key] == Entry(data, now)
    ensures forall k :: k in cache && k != key ==> r[k] == cache[k]
  {
    cache[key := Entry(data, now)]
  }

  /** What the request interceptor decides: answer from the cache, or let the request go out. */
  datatype Dispatch = Cached(data: Payload) | Send(config: RequestConfig)

  function RequestInterceptor(cache: map<string, Entry>, config: RequestConfig, now: int): (d: Dispatch)
    ensures d.Send? ==> d.config == config
    ensures d.Cached? <==> Lookup(cache, CacheKey(config), now).Some?
    ensures d.Cached? ==> d.data == cache[CacheKey(config)].data
  {
    match Lookup(cache, CacheKey(config), now)
    case Some(data) => Cached(data)
    case None => Send(config)
  }

  /** The outcome of one request: what the caller's promise settles to, the new state, and whether the network was used. */
  datatype Fetched = Fetched(result: Result<Payload, HttpError>, state: ClientState, requested: bool)

  /**
    One `apiClient.get`: `network` is what the server would answer and is
    consulted only on a miss; `requestTime` and `responseTime` are the clock
    readings of the two interceptors. A failure is re-raised unchanged and
    stores nothing (statuses 401 and 429 only add a log line).
   */
  function Get(st: ClientState, config: RequestConfig, requestTime: int,
               network: Result<Payload, HttpError>, responseTime: int): (f: Fetched)
    ensures var hit := Lookup(st.cache, CacheKey(config), requestTime);
      && (f.requested <==> hit.None?)
      && (hit.Some? ==> f.result == Ok(hit.value) && f.state == st)
      && (hit.None? && network.Err? ==> f.result == network && f.state == st)
      && (hit.None? && network.Ok? ==>
            && f.result == network
            && f.state.images == st.images
            && f.state.cache == Store(st.cache, CacheKey(config), network.value, responseTime))
  {
    match RequestInterceptor(st.cache, config, requestTime)
    case Cached(data) => Fetched(Ok(data), st, false)
    case Send(c) =>
      match network
      case Ok(data) =>
        Fetched(Ok(data), st.(cache := Store(st.cache, CacheKey(c), data, responseTime)), true)
      case Err(e) =>
        Fetched(Err(e), st, true)
  }

  /** `clearCache`: both the response cache and the image set become empty. */
  function ClearCache(st: ClientState): (r: ClientState)
    ensures r.cache == map[] && r.images == {}
  {
    EmptyState
  }

  datatype CacheSize = CacheSize(apiCache: nat, imageCache: nat)

  function GetCacheSize(st: ClientState): (r: CacheSize)
    ensures r.apiCache == |st.cache.Keys| && r.imageCache == |st.images|
  {
    CacheSize(|st.cache|, |st.images|)
  }

  // ---------------------------------------------------------------------------
  // Properties of the cache
  // ---------------------------------------------------------------------------

  /** An entry is served for strictly less than five minutes after it was stored. */
  lemma FreshnessBoundary(cache: map<string, Entry>, key: string, data: Payload, storedAt: int, age: int)
    ensures Lookup(Store(cache, key, data, storedAt), key, storedAt + age) == (if age < CacheDuration then Some(data) else None)
    ensures Lookup(Store(cache, key, data, storedAt), key, storedAt + 300000) == None
  {
  }

  /**
    A request repeated within five minutes of a successful response is answered
    from the cache with the same payload, issues no request and changes nothing.
   */
  lemma RepeatWithinWindowHits(st: ClientState, config: RequestConfig, t1: int, data: Payload, t1r: int,
                               t2: int, network2: Result<Payload, HttpError>, t2r: int)
    requires Get(st, config, t1, Ok(data), t1r).requested
    requires t2 - t1r < CacheDuration
    ensures var f1 := Get(st, config, t1, Ok(data), t1r);
      var f2 := Get(f1.state, config, t2, network2, t2r);
      !f2.requested && f2.result == Ok(data) && f2.state == f1.state
  {
  }

  /** Once five minutes have passed, the same request goes to the network and a success overwrites the entry. */
  lemma RepeatAfterWindowRefetches(st: ClientState, config: RequestConfig, t1: int, data: Payload, t1r: int,
                                   t2: int, data2: Payload, t2r: int)
    requires Get(st, config, t1, Ok(data), t1r).requested
    requires t2 - t1r >= CacheDuration
    ensures var f1 := Get(st, config, t1, Ok(data), t1r);
      var f2 := Get(f1.state, config, t2, Ok(data2), t2r);
      && f2.requested && f2.result == Ok(data2)
      && f2.state.cache[CacheKey(config)] == Entry(data2, t2r)
      && f2.state.cache.Keys == f1.state.cache.Keys
  {
  }

  /** A failed request (a 429, say) is surfaced unchanged and leaves no entry behind. */
  lemma FailureNotCached(st: ClientState, config: RequestConfig, now: int, e: HttpError, later: int)
    requires CacheKey(config) !in st.cache
    ensures var f := Get(st, config, now, Err(e), later);
      f.requested && f.result == Err(e) && f.state == st && CacheKey(config) !in f.state.cache
  {
  }

  /** Requests never remove entries: stale ones stay until `clearCache`. */
  lemma GetNeverShrinks(st: ClientState, config: RequestConfig, now: int, network: Result<Payload, HttpError>, later: int)
    ensures var f := Get(st, config, now, network, later);
      st.cache.Keys <= f.state.cache.Keys && f.state.images == st.images
  {
  }

  /** After `clearCache` both sizes are zero and every request goes to the network. */
  lemma ClearCacheForgets(st: ClientState, config: RequestConfig, now: int, network: Result<Payload, HttpError>, later: int)
    ensures GetCacheSize(ClearCache(st)) == CacheSize(0, 0)
    ensures Get(ClearCache(st), config, now, network, later).requested
  {
  }

  // ---------------------------------------------------------------------------
  // Image URLs
  // ---------------------------------------------------------------------------

  /** `${IMAGE_BASE_URL}/${size}${path}` */
  function ImageUrl(path: string, size: string): string {
    ImageBaseUrl + "/" + size + path
  }

  datatype ImageResult = ImageResult(url: string, images: set<string>)

  /** `getImageUrl(path, size)`: the placeholder for a null or empty path, otherwise the image URL, recorded in the set. */
  function GetImageUrl(images: set<string>, path: Option<string>, size: string): (r: ImageResult)
    ensures path.None? || path.value == "" ==> r == ImageResult(Placeholder, images)
    ensures path.Some? && path.value != "" ==>
      r.url == ImageUrl(path.value, size) && r.images == images + {r.url}
  {
    match path
    case None => ImageResult(Placeholder, images)
    case Some(p) =>
      if p == "" then ImageResult(Placeholder, images)
      else
        var url := ImageUrl(p, size);
        if url !in images then ImageResult(url, images + {url}) else ImageResult(url, images)
  }

  /** `preloadImage(path, size)`: nothing for a null path or an already recorded URL, otherwise the effect of `getImageUrl`. */
  function PreloadImage(images: set<string>, path: Option<string>, size: string): (r: set<string>)
    ensures path.None? || path.value == "" ==> r == images
    ensures path.Some? && path.value != "" ==> r == images + {ImageUrl(path.value, size)}
  {
    match path
    case None => images
    case Some(p) =>
      if p == "" || ImageUrl(p, size) in images then images
      else GetImageUrl(images, path, size).images
  }

  /** An image URL is never the placeholder, and the path can be read back off its end. */
  lemma ImageUrlRecoversPath(path: string, size: string)
    requires path != ""
    ensures ImageUrl(path, size) != Placeholder
    ensures var url := ImageUrl(path, size);
      var n := |ImageBaseUrl| + 1 + |size|;
      |url| == n + |path| && url[..|ImageBaseUrl| + 1] == ImageBaseUrl + "/" && url[n..] == path
  {
    assert ImageUrl(path, size)[0] == 'h';
  }

  /** Asking twice for the same image gives the same URL and records nothing new. */
  lemma GetImageUrlIdempotent(images: set<string>, path: Option<string>, size: string)
    ensures var r1 := GetImageUrl(images, path, size);
      var r2 := GetImageUrl(r1.images, path, size);
      r2 == r1
  {
  }

  /** Preloading has exactly the recording effect of `getImageUrl`, and is a no-op the second time. */
  lemma PreloadMatchesGetImageUrl(images: set<string>, path: Option<string>, size: string)
    ensures PreloadImage(images, path, size) == GetImageUrl(images, path, size).images
    ensures PreloadImage(PreloadImage(images, path, size), path, size) == PreloadImage(images, path, size)
  {
  }
}

=== FILE: auth_context.dfy ===
/**
  The demo authentication state of src/contexts/AuthContext.tsx: a user that is
  either absent or the hard-coded demo user, a loading flag, and the browser's
  local storage, modelled as a map from storage key to the stored user.
 */
module AuthContext {
  import opened Common

  datatype User = User(id: string, name: string, email: string, avatar: string, isPremium: bool)

  const DemoUser: User := User("1", "Demo User", "demo@cinescope.com", "/placeholder-user.jpg", true)

  const DemoEmail: string := "demo@cinescope.com"
  const DemoPassword: string := "demo123"

  const StorageKey: string := "cinescope_user"

  datatype AuthState = AuthState(user: Option<User>, isLoading: bool, storage: map<string, User>)

  /** The provider's state before its mount effect runs: no user, loading. */
  function Initial(storage: map<string, User>): AuthState {
    AuthState(None, true, storage)
  }

  /** `isAuthenticated: !!user`. */
  predicate IsAuthenticated(st: AuthState) {
    st.user.Some?
  }

  /** The mount effect: adopt the stored user if the key is present, then stop loading. */
  function RestoreSession(st: AuthState): (r: AuthState)
    ensures StorageKey in st.storage ==> r.user == Some(st.storage[StorageKey])
    ensures StorageKey !in st.storage ==> r.user == st.user
    ensures !r.isLoading && r.storage == st.storage
  {
    var restored := if StorageKey in st.storage then st.(user := Some(st.storage[StorageKey])) else st;
    restored.(isLoading := false)
  }

  /** Mounting the provider over a given storage. */
  function OnMount(storage: map<string, User>): (r: AuthState)
    ensures IsAuthenticated(r) <==> StorageKey in storage
    ensures StorageKey in storage ==> r.user == Some(storage[StorageKey])
    ensures !r.isLoading && r.storage == storage
  {
    RestoreSession(Initial(storage))
  }

  datatype LoginResult = LoginResult(state: AuthState, success: bool)

  /**
    `login(email, password)`: succeeds exactly on the demo credentials, compared
    character for character; success signs the demo user in and stores it.
    Either way loading is over when the promise settles.
   */
  function Login(st: AuthState, email: string, password: string): (r: LoginResult)
    ensures r.success <==> email == DemoEmail && password == DemoPassword
    ensures r.success ==> r.state.user == Some(DemoUser) && r.state.storage == st.storage[StorageKey := DemoUser]
    ensures !r.success ==> r.state.user == st.user && r.state.storage == st.storage
    ensures !r.state.isLoading
  {
    var busy := st.(isLoading := true);
    if email == DemoEmail && password == DemoPassword then
      LoginResult(busy.(user := Some(DemoUser), storage := busy.storage[StorageKey := DemoUser], isLoading := false), true)
    else
      LoginResult(busy.(isLoading := false), false)
  }

  /** `logout`: forget the user and remove the stored one; the loading flag is untouched. */
  function Logout(st: AuthState): (r: AuthState)
    ensures !IsAuthenticated(r) && StorageKey !in r.storage
    ensures forall k :: k in st.storage && k != StorageKey ==> k in r.storage && r.storage[k] == st.storage[k]
    ensures r.storage.Keys == st.storage.Keys - {StorageKey}
    ensures r.isLoading == st.isLoading
  {
    st.(user := None, storage := st.storage - {StorageKey})
  }

  // ---------------------------------------------------------------------------
  // Properties over several steps
  // ---------------------------------------------------------------------------

  /** A signed-in session survives a reload: the next mount restores the demo user. */
  lemma LoginSurvivesReload(st: AuthState, later: map<string, User>)
    requires later == Login(st, DemoEmail, DemoPassword).state.storage
    ensures Login(st, DemoEmail, DemoPassword).success
    ensures OnMount(later).user == Some(DemoUser)
  {
  }

  /** After logging out, a reload comes back signed out. */
  lemma LogoutSurvivesReload(st: AuthState)
    ensures !IsAuthenticated(OnMount(Logout(st).storage))
  {
  }

  lemma LogoutIdempotent(st: AuthState)
    ensures Logout(Logout(st)) == Logout(st)
  {
  }

  /** A failed attempt changes nothing but the loading flag, so a signed-in user stays signed in. */
  lemma FailedLoginKeepsSession(st: AuthState, email: string, password: string)
    requires !(email == DemoEmail && password == DemoPassword)
    ensures var r := Login(st, email, password);
      !r.success && r.state == st.(isLoading := false)
  {
  }

  /** No trimming and no case folding: near misses of the demo credentials are rejected. */
  lemma NearMissesRejected(st: AuthState)
    ensures !Login(st, " demo@cinescope.com", DemoPassword).success
    ensures !Login(st, "Demo@cinescope.com", DemoPassword).success
    ensures !Login(st, DemoEmail, "demo123 ").success
  {
  }
}

=== FILE: common.dfy ===
/** Failure-carrying wrappers shared by every module of the model. */
module Common {

  /** A value that may be absent: JavaScript's `null` (or `undefined`). */
  datatype Option<+T> = None | Some(value: T) {

    /** The wrapped value, or `default` when absent. */
    function GetOr(default: T): T {
      match this
      case Some(v) => v
      case None => default
    }
  }

  /** The settled state of a promise: fulfilled with a value, or rejected with an error. */
  datatype Result<+T, +E> = Ok(value: T) | Err(error: E)

  function Min(a: int, b: int): int {
    if a <= b then a else b
  }
}

=== FILE: hero_section.dfy ===
/**
  The featured-movie banner of src/components/HeroSection_new.tsx (lines 1–112 of
  src/components/HeroSection_old.tsx are the same component): choosing a random
  movie among the first five trending ones, and shortening its title and
  overview for display. `Math.random()` becomes a parameter in [0, 1).
 */
module HeroSection {
  import opened Common
  import opened Text
  import opened ApiClient

  /** The featured movie is drawn from this many leading results at most. */
  const PoolSize: int := 5

  const OverviewLimit: int := 150

  /** `Math.floor(random * Math.min(5, count))`. */
  function FeaturedIndex(random: real, count: nat): (i: int)
    requires 0.0 <= random < 1.0 && count > 0
    ensures 0 <= i < Min(PoolSize, count)
  {
    var n := Min(PoolSize, count);
    DrawIndexInRange(random, n);
    (random * (n as real)).Floor
  }

  /** A draw in [0, 1) scaled by `n` and rounded down is an index below `n`. */
  lemma DrawIndexInRange(random: real, n: int)
    requires 0.0 <= random < 1.0 && n > 0
    ensures 0 <= (random * (n as real)).Floor < n
  {
    var m := n as real;
    var x := random * m;
    assert m - x == (1.0 - random) * m;
    assert (1.0 - random) * m > 0.0;
    assert 0.0 <= x < m;
    assert x.Floor as real <= x;
  }

  /** Every one of the leading candidates is the pick for some random draw. */
  lemma EveryCandidateReachable(i: nat, count: nat)
    requires count > 0 && i < Min(PoolSize, count)
    ensures var n := Min(PoolSize, count);
      0.0 <= (i as real) / (n as real) < 1.0 && FeaturedIndex((i as real) / (n as real), count) == i
  {
    var n := Min(PoolSize, count) as real;
    var r := (i as real) / n;
    assert r * n == i as real;
    assert r < 1.0 by {
      assert (i as real) < n;
    }
  }

  /** An empty result list features nothing; otherwise one of its first five movies. */
  function PickFeatured(results: seq<Movie>, random: real): (r: Option<Movie>)
    requires 0.0 <= random < 1.0
    ensures r.None? <==> |results| == 0
    ensures r.Some? ==> exists i :: 0 <= i < Min(PoolSize, |results|) && results[i] == r.value
  {
    if |results| > 0 then
      var i := FeaturedIndex(random, |results|);
      Some(results[i])
    else None
  }

  datatype HeroState = HeroState(featured: Option<Movie>, isLoading: bool)

  const InitialHero: HeroState := HeroState(None, true)

  /** The mount effect: page 1 of trending, a pick if it succeeded, and loading over either way. */
  function LoadFeatured(st: HeroState, response: Result<MovieListResponse, HttpError>, random: real): (r: HeroState)
    requires 0.0 <= random < 1.0
    ensures !r.isLoading
    ensures response.Err? ==> r.featured == st.featured
    ensures response.Ok? && |response.value.results| == 0 ==> r.featured == st.featured
    ensures response.Ok? && |response.value.results| > 0 ==>
      r.featured.Some? && r.featured.value in response.value.results[..Min(PoolSize, |response.value.results|)]
  {
    var picked :=
      match response
      case Ok(resp) =>
        (match PickFeatured(resp.results, random)
         case Some(m) => st.(featured := Some(m))
         case None => st)
      case Err(_) => st;
    picked.(isLoading := false)
  }

  /** The spinner shows until a movie has been featured. */
  predicate ShowSpinner(st: HeroState) {
    st.isLoading || st.featured.None?
  }

  /**
    The banner starts as a spinner; after the mount effect it shows a movie
    exactly when trending page 1 arrived with at least one movie, and stays a
    spinner for good otherwise (the effect runs once).
   */
  lemma BannerAfterMount(response: Result<MovieListResponse, HttpError>, random: real)
    requires 0.0 <= random < 1.0
    ensures ShowSpinner(InitialHero)
    ensures !ShowSpinner(LoadFeatured(InitialHero, response, random))
        <==> response.Ok? && |response.value.results| > 0
  {
  }

  /** `title.split(' ').slice(0, 2).join(' ')`. */
  function DisplayTitle(title: string): string {
    Join(Take(Split(title, ' '), 2), ' ')
  }

  /**
    The shown title is the original cut just before its second space: a prefix
    of it, with at most one space; a title with at most one space is shown whole.
   */
  lemma DisplayTitleSpec(title: string)
    ensures DisplayTitle(title) == PrefixBefore(title, ' ', 1)
    ensures DisplayTitle(title) <= title
    ensures Count(DisplayTitle(title), ' ') <= 1
    ensures Count(title, ' ') <= 1 ==> DisplayTitle(title) == title
    ensures Count(title, ' ') > 1 ==>
      var t := DisplayTitle(title);
      |t| < |title| && title[|t|] == ' ' && Count(t, ' ') == 1
  {
    JoinTakeSplit(title, ' ', 1);
    PrefixBeforeIsPrefix(title, ' ', 1);
    PrefixBeforeCut(title, ' ', 1);
  }

  /** A concrete title of three words keeps its first two. */
  lemma DisplayTitleExample()
    ensures DisplayTitle("A B C") == "A B"
  {
    DisplayTitleSpec("A B C");
    calc {
      PrefixBefore("A B C", ' ', 1);
      "A" + PrefixBefore(" B C", ' ', 1);
      "A " + PrefixBefore("B C", ' ', 0);
      "A B" + PrefixBefore(" C", ' ', 0);
      "A B";
    }
  }

  /** The overview, cut to 150 characters with "..." when longer. */
  function ShortOverview(overview: string): (r: string)
    ensures |overview| <= OverviewLimit ==> r == overview
    ensures |overview| > OverviewLimit ==> |r| == OverviewLimit + 3 && r[..OverviewLimit] == overview[..OverviewLimit] && r[OverviewLimit..] == "..."
  {
    if |overview| > OverviewLimit then overview[..OverviewLimit] + "..." else overview
  }

  /** Shortening an already shortened overview changes nothing. */
  lemma ShortOverviewIdempotent(overview: string)
    ensures ShortOverview(ShortOverview(overview)) == ShortOverview(overview)
  {
    if |overview| > OverviewLimit {
      var r := ShortOverview(overview);
      assert r[..OverviewLimit] + "..." == r;
    }
  }
}

=== FILE: home_page.dfy ===
/** The category filter and hero visibility of src/pages/HomePage.tsx. */
module HomePage {
  import opened Common
  import MovieCategory

  datatype Category = Category(id: string, title: string, endpoint: string)

  const Categories: seq<Category> := [
    Category("trending", "Trending Now", "trending"),
    Category("popular", "New Releases", "popular"),
    Category("top_rated", "Top Rated Movies", "top_rated"),
    Category("now_playing", "Now Playing", "now_playing"),
    Category("upcoming", "Coming Soon", "upcoming")
  ]

  /** `categories.filter(cat => cat.id === id)`. */
  function FilterById(cats: seq<Category>, id: string): (r: seq<Category>)
    ensures forall c :: c in r <==> c in cats && c.id == id
  {
    if |cats| == 0 then []
    else (if cats[0].id == id then [cats[0]] else []) + FilterById(cats[1..], id)
  }

  /** The `category` URL parameter, when present and non-empty, narrows the list to that id. */
  function DisplayCategories(param: Option<string>): seq<Category> {
    match param
    case Some(p) => if p != "" then FilterById(Categories, p) else Categories
    case None => Categories
  }

  /** `!categoryFromUrl`. */
  predicate ShowHero(param: Option<string>) {
    param.None? || param.value == ""
  }

  /** `a` is `b` with some elements left out, the rest in their original order. */
  predicate IsSubsequence(a: seq<Category>, b: seq<Category>)
    decreases |b|
  {
    if |a| == 0 then true
    else if |b| == 0 then false
    else if a[0] == b[0] then IsSubsequence(a[1..], b[1..])
    else IsSubsequence(a, b[1..])
  }

  lemma {:induction false} FilterIsSubsequence(cats: seq<Category>, id: string)
    ensures IsSubsequence(FilterById(cats, id), cats)
    decreases |cats|
  {
    if |cats| > 0 {
      FilterIsSubsequence(cats[1..], id);
      var rest := FilterById(cats[1..], id);
      if cats[0].id == id {
        assert FilterById(cats, id) == [cats[0]] + rest;
        assert ([cats[0]] + rest)[1..] == rest;
      } else {
        assert FilterById(cats, id) == rest;
        SubsequenceSkip(rest, cats);
      }
    }
  }

  /** Dropping the head of the longer sequence keeps a subsequence of its tail one of the whole. */
  lemma {:induction false} SubsequenceSkip(a: seq<Category>, b: seq<Category>)
    requires |b| > 0 && IsSubsequence(a, b[1..])
    ensures IsSubsequence(a, b)
    decreases |a| + |b|, 1
  {
    if |a| > 0 && a[0] == b[0] {
      SubsequenceTail(a, b[1..]);
    }
  }

  /** Dropping the head of the shorter sequence keeps it a subsequence. */
  lemma {:induction false} SubsequenceTail(a: seq<Category>, b: seq<Category>)
    requires |a| > 0 && IsSubsequence(a, b)
    ensures IsSubsequence(a[1..], b)
    decreases |a| + |b|, 0
  {
    if |b| > 0 {
      if a[0] == b[0] {
        if |a| > 1 {
          SubsequenceTail(a[1..], b[1..]);
          SubsequenceSkip(a[1..], b);
        }
      } else {
        SubsequenceTail(a, b[1..]);
        if |a| > 1 {
          SubsequenceSkip(a[1..], b);
        }
      }
    }
  }

  predicate DistinctIds(cats: seq<Category>) {
    forall i, j :: 0 <= i < j < |cats| ==> cats[i].id != cats[j].id
  }

  lemma CategoryIdsDistinct()
    ensures DistinctIds(Categories)
  {
    assert Categories[0].id[0] == 't' && Categories[2].id[0] == 't';
    assert Categories[0].id[1] != Categories[2].id[1];
  }

  /** With distinct ids, filtering by one element's id leaves exactly that element. */
  lemma {:induction false} FilterUniqueId(cats: seq<Category>, i: nat)
    requires i < |cats| && DistinctIds(cats)
    ensures FilterById(cats, cats[i].id) == [cats[i]]
    decreases |cats|
  {
    var rest := cats[1..];
    if i == 0 {
      assert forall k :: 0 <= k < |rest| ==> rest[k].id != cats[0].id by {
        forall k | 0 <= k < |rest| ensures rest[k].id != cats[0].id {
          assert rest[k] == cats[k + 1];
        }
      }
      FilterAbsentId(rest, cats[0].id);
    } else {
      FilterUniqueId(rest, i - 1);
      assert rest[i - 1] == cats[i];
    }
  }

  lemma {:induction false} FilterAbsentId(cats: seq<Category>, id: string)
    requires forall k :: 0 <= k < |cats| ==> cats[k].id != id
    ensures FilterById(cats, id) == []
    decreases |cats|
  {
    if |cats| > 0 {
      FilterAbsentId(cats[1..], id);
    }
  }

  lemma CategoryEndpointsNamed()
    ensures forall i :: 0 <= i < |Categories| ==> MovieCategory.IsEndpointName(Categories[i].endpoint)
  {
    assert MovieCategory.IsEndpointName(Categories[0].endpoint);
    assert MovieCategory.IsEndpointName(Categories[1].endpoint);
    assert MovieCategory.IsEndpointName(Categories[2].endpoint);
    assert MovieCategory.IsEndpointName(Categories[3].endpoint);
    assert MovieCategory.IsEndpointName(Categories[4].endpoint);
  }

  /** Without a parameter, or with an empty one, all five categories show, in order. */
  lemma DisplayAllWithoutParam(param: Option<string>)
    requires ShowHero(param)
    ensures DisplayCategories(param) == Categories
  {
  }

  /** A known id shows exactly its own category. */
  lemma DisplayKnownId(i: nat)
    requires i < |Categories|
    ensures DisplayCategories(Some(Categories[i].id)) == [Categories[i]]
  {
    CategoryIdsDistinct();
    FilterUniqueId(Categories, i);
  }

  /** A parameter that is not an id shows no category at all. */
  lemma DisplayUnknownId(p: string)
    requires p != ""
    requires forall i :: 0 <= i < |Categories| ==> Categories[i].id != p
    ensures DisplayCategories(Some(p)) == []
  {
    FilterAbsentId(Categories, p);
  }

  /** Whatever the parameter, the categories shown keep the order of the full list. */
  lemma DisplayIsSubsequence(param: Option<string>)
    ensures IsSubsequence(DisplayCategories(param), Categories)
  {
    if ShowHero(param) {
      SubsequenceRefl(Categories);
    } else {
      FilterIsSubsequence(Categories, param.value);
    }
  }

  lemma {:induction false} SubsequenceRefl(a: seq<Category>)
    ensures IsSubsequence(a, a)
    decreases |a|
  {
    if |a| > 0 {
      SubsequenceRefl(a[1..]);
    }
  }

  /** The hero shows exactly when the full list does. */
  lemma HeroIffFullList(param: Option<string>)
    ensures ShowHero(param) <==> DisplayCategories(param) == Categories
  {
    if !ShowHero(param) {
      var r := FilterById(Categories, param.value);
      CategoryIdsDistinct();
      assert Categories[0].id != Categories[1].id;
      assert !(Categories[0] in r && Categories[1] in r);
    }
  }

  /** Every category shown names its own fetcher; none relies on the popular fallback. */
  lemma CategoriesUseOwnFetcher(param: Option<string>)
    ensures forall c :: c in DisplayCategories(param) ==>
      MovieCategory.IsEndpointName(c.endpoint) && MovieCategory.EndpointName(MovieCategory.Fetcher(c.endpoint)) == c.endpoint
  {
    CategoryEndpointsNamed();
    forall c | c in DisplayCategories(param)
      ensures MovieCategory.IsEndpointName(c.endpoint)
      ensures MovieCategory.EndpointName(MovieCategory.Fetcher(c.endpoint)) == c.endpoint
    {
      assert c in Categories;
      var i :| 0 <= i < |Categories| && Categories[i] == c;
      MovieCategory.FetcherDispatch(c.endpoint);
    }
  }
}

=== FILE: movie_category.dfy ===
/**
  The paginated category feed of src/components/MovieCategory.tsx (the logic of
  src/components/MovieCategory_old.tsx is the same, line for line).

  React state updates and effects are taken as atomic steps. A fetch is the pair
  `BeginFetch` (the in-flight guard and `setIsLoading(true)`) and
  `CompleteFetch` (merging the settled response); `FetchMovies` runs both, with
  the network's answer passed in as a value.
 */
module MovieCategory {
  import opened Common
  import opened ApiClient

  // ---------------------------------------------------------------------------
  // Endpoint dispatch
  // ---------------------------------------------------------------------------

  datatype Endpoint = Trending | Popular | TopRated | NowPlaying | Upcoming

  /** The endpoint name that selects each fetcher. */
  function EndpointName(e: Endpoint): string {
    match e
    case Trending => "trending"
    case Popular => "popular"
    case TopRated => "top_rated"
    case NowPlaying => "now_playing"
    case Upcoming => "upcoming"
  }

  predicate IsEndpointName(s: string) {
    s == "trending" || s == "popular" || s == "top_rated" || s == "now_playing" || s == "upcoming"
  }

  /** The `switch (endpoint)` in `fetchMovies`; any other string falls back to popular. */
  function Fetcher(endpoint: string): Endpoint {
    match endpoint
    case "trending" => Trending
    case "popular" => Popular
    case "top_rated" => TopRated
    case "now_playing" => NowPlaying
    case "upcoming" => Upcoming
    case _ => Popular
  }

  /** The API path each fetcher requests. */
  function EndpointPath(e: Endpoint): (p: string)
    ensures WellFormedUrl(p)
  {
    match e
    case Trending => TrendingPath
    case Popular => PopularPath
    case TopRated => TopRatedPath
    case NowPlaying => NowPlayingPath
    case Upcoming => UpcomingPath
  }

  /** Each named endpoint selects its own fetcher; every other string selects popular. */
  lemma FetcherDispatch(endpoint: string)
    ensures IsEndpointName(endpoint) ==> EndpointName(Fetcher(endpoint)) == endpoint
    ensures !IsEndpointName(endpoint) ==> Fetcher(endpoint) == Popular
    ensures forall e :: Fetcher(EndpointName(e)) == e
  {
  }

  // ---------------------------------------------------------------------------
  // Feed state and transitions
  // ---------------------------------------------------------------------------

  datatype Feed = Feed(
    movies: seq<Movie>,
    currentPage: int,
    totalPages: int,
    isLoading: bool,
    hasInitialLoad: bool)

  /** The `useState` initial values. */
  const InitialFeed: Feed := Feed([], 1, 1, false, false)

  /** A request sent to the network: which fetcher, which page. */
  datatype PageRequest = PageRequest(endpoint: Endpoint, page: int)

  function RequestConfigOf(r: PageRequest): RequestConfig {
    PageConfig(EndpointPath(r.endpoint), r.page)
  }

  /** Requests of two feeds share a cache entry exactly when they are the same page of the same endpoint. */
  lemma FeedRequestsNeverCollide(r1: PageRequest, r2: PageRequest)
    ensures CacheKey(RequestConfigOf(r1)) == CacheKey(RequestConfigOf(r2)) <==> r1 == r2
  {
    PageKeysDistinct(EndpointPath(r1.endpoint), r1.page, EndpointPath(r2.endpoint), r2.page);
    assert EndpointPath(r1.endpoint) == EndpointPath(r2.endpoint) ==> r1.endpoint == r2.endpoint;
  }

  /** A transition's outcome: the new feed and the request it made, if any. */
  datatype Step = Step(feed: Feed, request: Option<PageRequest>)

  function BeginFetch(feed: Feed, endpoint: string, page: int): Step {
    if feed.isLoading then Step(feed, None)
    else Step(feed.(isLoading := true), Some(PageRequest(Fetcher(endpoint), page)))
  }

  function CompleteFetch(feed: Feed, page: int, reset: bool,
                         response: Result<MovieListResponse, HttpError>): Feed {
    var merged :=
      match response
      case Ok(r) =>
        feed.(movies := if reset then r.results else feed.movies + r.results,
              totalPages := r.totalPages,
              currentPage := page)
      case Err(_) => feed;
    merged.(isLoading := false, hasInitialLoad := true)
  }

  /**
    `fetchMovies(page, reset)`: nothing while a fetch is in flight; otherwise one
    request for `page`, after which loading is over and the initial load has
    happened. A success replaces (reset) or extends (otherwise) the movies and
    takes the page and the page count from the response; a failure keeps them.
   */
  function FetchMovies(feed: Feed, endpoint: string, page: int, reset: bool,
                       response: Result<MovieListResponse, HttpError>): (s: Step)
    ensures feed.isLoading ==> s == Step(feed, None)
    ensures !feed.isLoading ==>
      && s.request == Some(PageRequest(Fetcher(endpoint), page))
      && !s.feed.isLoading && s.feed.hasInitialLoad
    ensures !feed.isLoading && response.Ok? ==>
      var results := response.value.results;
      && (reset ==> s.feed.movies == results)
      && (!reset ==> |s.feed.movies| == |feed.movies| + |results|
                     && s.feed.movies[..|feed.movies|] == feed.movies
                     && s.feed.movies[|feed.movies|..] == results)
      && s.feed.currentPage == page
      && s.feed.totalPages == response.value.totalPages
    ensures !feed.isLoading && response.Err? ==>
      && s.feed.movies == feed.movies
      && s.feed.currentPage == feed.currentPage
      && s.feed.totalPages == feed.totalPages
  {
    var begun := BeginFetch(feed, endpoint, page);
    if begun.request.None? then begun
    else Step(CompleteFetch(begun.feed, page, reset, response), begun.request)
  }

  /** The `[endpoint]` effect: a reset load of page 1. */
  function InitialLoad(feed: Feed, endpoint: string, response: Result<MovieListResponse, HttpError>): (s: Step)
    ensures feed.isLoading ==> s == Step(feed, None)
    ensures !feed.isLoading ==> s.request == Some(PageRequest(Fetcher(endpoint), 1))
    ensures !feed.isLoading && response.Ok? ==>
      s.feed.movies == response.value.results && s.feed.currentPage == 1
    ensures s.request.Some? ==> s.request.value.page == 1
  {
    FetchMovies(feed, endpoint, 1, true, response)
  }

  /** The guard of the load-more effect. */
  predicate CanLoadMore(feed: Feed, inView: bool) {
    inView && feed.hasInitialLoad && feed.currentPage < feed.totalPages && !feed.isLoading
  }

  /**
    The load-more effect: when the sentinel is in view after the initial load,
    more pages remain and nothing is loading, fetch the next page and append it.
    It never moves back a page and never drops a movie.
   */
  function LoadMore(feed: Feed, endpoint: string, inView: bool,
                    response: Result<MovieListResponse, HttpError>): (s: Step)
    ensures s.request.Some? <==>
      inView && feed.hasInitialLoad && feed.currentPage < feed.totalPages && !feed.isLoading
    ensures s.request.Some? ==> s.request.value.page == feed.currentPage + 1
    ensures s.request.None? ==> s.feed == feed
    ensures s.feed.currentPage >= feed.currentPage
    ensures feed.movies <= s.feed.movies
  {
    if CanLoadMore(feed, inView) then FetchMovies(feed, endpoint, feed.currentPage + 1, false, response)
    else Step(feed, None)
  }

  // ---------------------------------------------------------------------------
  // Properties over several steps
  // ---------------------------------------------------------------------------

  /** While a fetch is in flight, neither a second fetch nor load-more does anything. */
  lemma InFlightGuard(feed: Feed, endpoint: string, page: int, page2: int, reset2: bool,
                      response: Result<MovieListResponse, HttpError>)
    requires !feed.isLoading
    ensures var busy := BeginFetch(feed, endpoint, page).feed;
      && FetchMovies(busy, endpoint, page2, reset2, response) == Step(busy, None)
      && LoadMore(busy, endpoint, true, response) == Step(busy, None)
  {
  }

  /** A failed page leaves the feed retryable: the next load-more asks for the same page again. */
  lemma RetryAfterFailure(feed: Feed, endpoint: string, e: HttpError,
                          response: Result<MovieListResponse, HttpError>)
    requires CanLoadMore(feed, true)
    ensures var failed := LoadMore(feed, endpoint, true, Err(e)).feed;
      && failed.movies == feed.movies && failed.currentPage == feed.currentPage
      && LoadMore(failed, endpoint, true, response).request
         == Some(PageRequest(Fetcher(endpoint), feed.currentPage + 1))
  {
  }

  /** Repeated load-more with the sentinel in view, one response per step. */
  function Scroll(feed: Feed, endpoint: string, responses: seq<Result<MovieListResponse, HttpError>>): Feed
    decreases |responses|
  {
    if |responses| == 0 then feed
    else Scroll(LoadMore(feed, endpoint, true, responses[0]).feed, endpoint, responses[1..])
  }

  /** Whatever the responses, scrolling keeps every movie already shown and never moves back a page. */
  lemma {:induction false} ScrollMonotone(feed: Feed, endpoint: string,
                                          responses: seq<Result<MovieListResponse, HttpError>>)
    ensures feed.movies <= Scroll(feed, endpoint, responses).movies
    ensures feed.currentPage <= Scroll(feed, endpoint, responses).currentPage
    decreases |responses|
  {
    if |responses| > 0 {
      ScrollMonotone(LoadMore(feed, endpoint, true, responses[0]).feed, endpoint, responses[1..]);
    }
  }

  predicate AllSucceedWith(responses: seq<Result<MovieListResponse, HttpError>>, total: int) {
    forall i :: 0 <= i < |responses| ==> responses[i].Ok? && responses[i].value.totalPages == total
  }

  /** The results of successful responses, concatenated in order. */
  function Concat(responses: seq<Result<MovieListResponse, HttpError>>): seq<Movie>
    requires forall i :: 0 <= i < |responses| ==> responses[i].Ok?
  {
    if |responses| == 0 then [] else responses[0].value.results + Concat(responses[1..])
  }

  /**
    Successful pages, as long as pages remain, are appended in order and advance
    the page by one each.
   */
  lemma {:induction false} ScrollAppendsPages(feed: Feed, endpoint: string,
                                              responses: seq<Result<MovieListResponse, HttpError>>, total: int)
    requires feed.hasInitialLoad && !feed.isLoading && feed.totalPages == total
    requires AllSucceedWith(responses, total)
    requires feed.currentPage + |responses| <= total
    ensures var f := Scroll(feed, endpoint, responses);
      && f.movies == feed.movies + Concat(responses)
      && f.currentPage == feed.currentPage + |responses|
      && f.totalPages == total && !f.isLoading && f.hasInitialLoad
    decreases |responses|
  {
    if |responses| > 0 {
      var next := LoadMore(feed, endpoint, true, responses[0]).feed;
      assert next.movies == feed.movies + responses[0].value.results;
      ScrollAppendsPages(next, endpoint, responses[1..], total);
      assert feed.movies + responses[0].value.results + Concat(responses[1..])
          == feed.movies + Concat(responses);
    }
  }

  lemma {:induction false} ConcatLength(responses: seq<Result<MovieListResponse, HttpError>>, n: nat)
    requires forall i :: 0 <= i < |responses| ==> responses[i].Ok? && |responses[i].value.results| == n
    ensures |Concat(responses)| == n * |responses|
    decreases |responses|
  {
    if |responses| > 0 {
      ConcatLength(responses[1..], n);
    }
  }

  /**
    The worked example: page 1 of "popular" brings 20 movies out of 5 pages; four
    more loads of 20 each give 100 movies on page 5, and a fifth load-more does
    nothing.
   */
  lemma PopularScenario(first: Result<MovieListResponse, HttpError>,
                        more: seq<Result<MovieListResponse, HttpError>>,
                        extra: Result<MovieListResponse, HttpError>)
    requires first.Ok? && |first.value.results| == 20 && first.value.totalPages == 5
    requires |more| == 4 && AllSucceedWith(more, 5)
    requires forall i :: 0 <= i < |more| ==> |more[i].value.results| == 20
    ensures var loaded := InitialLoad(InitialFeed, "popular", first).feed;
      var scrolled := Scroll(loaded, "popular", more);
      && |scrolled.movies| == 100 && scrolled.currentPage == 5
      && LoadMore(scrolled, "popular", true, extra) == Step(scrolled, None)
  {
    var loaded := InitialLoad(InitialFeed, "popular", first).feed;
    ScrollAppendsPages(loaded, "popular", more, 5);
    ConcatLength(more, 20);
  }
}

=== FILE: movie_details_page.dfy ===
/**
  The display helpers of src/pages/MovieDetailsPage.tsx: the runtime label, the
  budget and revenue disclosure, the official-site and IMDB links, the
  production section and the company badges.
 */
module MovieDetailsPage {
  import opened Common
  import opened Text
  import opened ApiClient

  const NotAvailable: string := "N/A"

  const ImdbTitleUrl: string := "https://www.imdb.com/title/"

  /** JavaScript's `%`: the remainder takes the sign of the dividend. */
  function JsRemainder(a: int, b: int): int
    requires b > 0
  {
    if a >= 0 then a % b else -((-a) % b)
  }

  /**
    `movie.runtime ? `${Math.floor(runtime / 60)}h ${runtime % 60}m` : 'N/A'`.
    Dafny's `/` by a positive divisor rounds down, as `Math.floor` does.
   */
  function RuntimeLabel(runtime: Option<int>): string {
    match runtime
    case None => NotAvailable
    case Some(r) =>
      if r == 0 then NotAvailable
      else IntToString(r / 60) + "h " + IntToString(JsRemainder(r, 60)) + "m"
  }

  /** Reads an "Xh Ym" label back into minutes; anything else (such as "N/A") is rejected. */
  function ParseRuntime(text: string): Option<int> {
    var parts := Split(text, ' ');
    if |parts| == 2 && |parts[0]| >= 1 && parts[0][|parts[0]| - 1] == 'h'
       && |parts[1]| >= 1 && parts[1][|parts[1]| - 1] == 'm'
    then
      match (ParseInt(parts[0][..|parts[0]| - 1]), ParseInt(parts[1][..|parts[1]| - 1]))
      case (Some(h), Some(m)) => Some(h * 60 + m)
      case _ => None
    else None
  }

  /** A missing or zero runtime shows "N/A", which no runtime label can be read back from. */
  lemma RuntimeUnknown()
    ensures RuntimeLabel(None) == NotAvailable && RuntimeLabel(Some(0)) == NotAvailable
    ensures ParseRuntime(NotAvailable) == None
  {
    assert ' ' !in NotAvailable;
    SplitWithoutSeparator(NotAvailable, ' ');
  }

  /**
    A positive runtime shows whole hours and the minutes left over, 0 to 59, and
    the label reads back as the runtime it came from.
   */
  lemma RuntimeLabelRoundTrip(r: int)
    requires r > 0
    ensures var h := r / 60; var m := JsRemainder(r, 60);
      && 0 <= m < 60 && h * 60 + m == r
      && RuntimeLabel(Some(r)) == IntToString(h) + "h " + IntToString(m) + "m"
    ensures ParseRuntime(RuntimeLabel(Some(r))) == Some(r)
  {
    var h := r / 60;
    var m := JsRemainder(r, 60);
    var p0 := IntToString(h) + "h";
    var p1 := IntToString(m) + "m";
    var shown := RuntimeLabel(Some(r));
    assert shown == p0 + [' '] + p1;
    assert ' ' !in p0 by {
      assert forall i :: 0 <= i < |IntToString(h)| ==> IsDigit(IntToString(h)[i]);
    }
    assert ' ' !in p1 by {
      assert forall i :: 0 <= i < |IntToString(m)| ==> IsDigit(IntToString(m)[i]);
    }
    SplitAfterPiece(p0, p1, ' ');
    SplitWithoutSeparator(p1, ' ');
    assert Split(shown, ' ') == [p0, p1];
    assert p0[..|p0| - 1] == IntToString(h);
    assert p1[..|p1| - 1] == IntToString(m);
    IntToStringRoundTrip(h);
    IntToStringRoundTrip(m);
  }

  /** What the budget and revenue cells show. */
  datatype Amount = Disclosed(value: int) | NotDisclosed

  /** `amount > 0 ? `$${amount.toLocaleString()}` : 'Not disclosed'`. */
  function AmountLabel(amount: int): (a: Amount)
    ensures a.Disclosed? <==> amount > 0
    ensures a.Disclosed? ==> a.value == amount
  {
    if amount > 0 then Disclosed(amount) else NotDisclosed
  }

  /** The budget and revenue cells of the details grid. */
  function MoneyCells(d: MovieDetails): (r: (Amount, Amount))
    ensures r.0.Disclosed? <==> d.budget > 0
    ensures r.0.Disclosed? ==> r.0.value == d.budget
    ensures r.1.Disclosed? <==> d.revenue > 0
    ensures r.1.Disclosed? ==> r.1.value == d.revenue
  {
    (AmountLabel(d.budget), AmountLabel(d.revenue))
  }

  /** The budget cell depends on the budget alone and the revenue cell on the revenue alone. */
  lemma MoneyCellsIndependent(d: MovieDetails, d2: MovieDetails)
    ensures d.budget == d2.budget ==> MoneyCells(d).0 == MoneyCells(d2).0
    ensures d.revenue == d2.revenue ==> MoneyCells(d).1 == MoneyCells(d2).1
  {
  }

  /** A link shown only for a non-null, non-empty value (`value && <a href=…>`). */
  function PresentText(value: Option<string>): Option<string> {
    match value
    case Some(v) => if v != "" then Some(v) else None
    case None => None
  }

  /** The IMDB link, when the movie has an IMDB id. */
  function ImdbLink(imdbId: Option<string>): (link: Option<string>)
    ensures link.Some? <==> imdbId.Some? && imdbId.value != ""
  {
    match PresentText(imdbId)
    case Some(id) => Some(ImdbTitleUrl + id)
    case None => None
  }

  /** The official-site link, when the movie has a homepage. */
  function HomepageLink(homepage: Option<string>): (link: Option<string>)
    ensures link.Some? <==> homepage.Some? && homepage.value != ""
    ensures link.Some? ==> link == homepage
  {
    PresentText(homepage)
  }

  /** The IMDB link is the title URL followed by the id, and the id can be read back off it. */
  lemma ImdbLinkRecoversId(imdbId: Option<string>)
    requires imdbId.Some? && imdbId.value != ""
    ensures var link := ImdbLink(imdbId).value;
      link[..|ImdbTitleUrl|] == ImdbTitleUrl && link[|ImdbTitleUrl|..] == imdbId.value
  {
  }

  /** `production_companies && production_companies.length > 0`. */
  predicate ShowProduction(companies: Option<seq<Company>>) {
    companies.Some? && |companies.value| > 0
  }

  /** A company is shown by its logo when it has one, by its name otherwise. */
  datatype Badge = Logo(url: string) | Name(name: string)

  predicate HasLogo(c: Company) {
    c.logoPath.Some? && c.logoPath.value != ""
  }

  /** The w200 logo URL of a company that has a logo. */
  function LogoUrl(c: Company): string
    requires HasLogo(c)
  {
    ImageUrl(c.logoPath.value, "w200")
  }

  function CompanyBadge(images: set<string>, c: Company): (r: (Badge, set<string>))
    ensures HasLogo(c) ==> r.0 == Logo(LogoUrl(c)) && r.1 == images + {LogoUrl(c)}
    ensures !HasLogo(c) ==> r.0 == Name(c.name) && r.1 == images
  {
    match c.logoPath
    case Some(p) =>
      if p != "" then
        var img := GetImageUrl(images, c.logoPath, "w200");
        (Logo(img.url), img.images)
      else (Name(c.name), images)
    case None => (Name(c.name), images)
  }

  /** The logo URLs of the companies that have one. */
  function LogoUrls(cs: seq<Company>): set<string> {
    set i | 0 <= i < |cs| && HasLogo(cs[i]) :: LogoUrl(cs[i])
  }

  lemma LogoUrlsCons(cs: seq<Company>)
    requires |cs| > 0
    ensures LogoUrls(cs) == (if HasLogo(cs[0]) then {LogoUrl(cs[0])} else {}) + LogoUrls(cs[1..])
  {
    var rest := cs[1..];
    forall u | u in LogoUrls(cs)
      ensures u in (if HasLogo(cs[0]) then {LogoUrl(cs[0])} else {}) + LogoUrls(rest)
    {
      var i :| 0 <= i < |cs| && HasLogo(cs[i]) && LogoUrl(cs[i]) == u;
      if i > 0 {
        assert rest[i - 1] == cs[i];
      }
    }
    forall u | u in LogoUrls(rest) ensures u in LogoUrls(cs) {
      var i :| 0 <= i < |rest| && HasLogo(rest[i]) && LogoUrl(rest[i]) == u;
      assert cs[i + 1] == rest[i];
    }
  }

  /**
    `companies.map(company => …)`: one badge per company, in order, each
    rendered against the image set the badges before it left behind.
   */
  function Badges(images: set<string>, cs: seq<Company>): (r: (seq<Badge>, set<string>))
    ensures |r.0| == |cs|
    ensures forall i :: 0 <= i < |cs| ==>
      r.0[i] == (if HasLogo(cs[i]) then Logo(LogoUrl(cs[i])) else Name(cs[i].name))
    ensures r.1 == images + LogoUrls(cs)
    decreases |cs|
  {
    if |cs| == 0 then ([], images)
    else
      var first := CompanyBadge(images, cs[0]);
      var rest := Badges(first.1, cs[1..]);
      LogoUrlsCons(cs);
      ([first.0] + rest.0, rest.1)
  }

  /**
    The Production section: absent for a null or empty company list; otherwise
    one badge per company, in order, and every logo URL recorded in the image set.
   */
  function ProductionSection(images: set<string>, companies: Option<seq<Company>>): (r: (Option<seq<Badge>>, set<string>))
    ensures r.0.None? <==> companies.None? || |companies.value| == 0
    ensures r.0.None? ==> r.1 == images
    ensures r.0.Some? ==>
      && |r.0.value| == |companies.value|
      && (forall i :: 0 <= i < |companies.value| ==>
            r.0.value[i] == (if HasLogo(companies.value[i]) then Logo(LogoUrl(companies.value[i]))
                             else Name(companies.value[i].name)))
      && r.1 == images + LogoUrls(companies.value)
  {
    if ShowProduction(companies) then
      var b := Badges(images, companies.value);
      (Some(b.0), b.1)
    else (None, images)
  }
}

=== FILE: protected_route.dfy ===
/** The route gate of src/components/ProtectedRoute.tsx. */
module ProtectedRoute {
  import opened Common
  import opened AuthContext

  /** What the gate renders. */
  datatype Screen = Spinner | LoginScreen | Children

  /**
    While the auth state is loading, a spinner; then the login page for a
    visitor and the protected children for a signed-in user.
   */
  function Gate(isAuthenticated: bool, isLoading: bool): (v: Screen)
    ensures isLoading ==> v == Spinner
    ensures v == Children <==> isAuthenticated && !isLoading
    ensures v == LoginScreen <==> !isAuthenticated && !isLoading
  {
    if isLoading then Spinner
    else if !isAuthenticated then LoginScreen
    else Children
  }

  function Route(st: AuthState): Screen {
    Gate(IsAuthenticated(st), st.isLoading)
  }

  /**
    The gate over the provider's life: a spinner before the mount effect, then
    the children exactly when storage held a user; a successful login opens the
    gate and a logout after loading closes it.
   */
  lemma GateThroughSession(storage: map<string, User>, st: AuthState)
    ensures Route(Initial(storage)) == Spinner
    ensures Route(OnMount(storage)) == Children <==> StorageKey in storage
    ensures Route(OnMount(storage)) != Spinner
    ensures Route(Login(st, DemoEmail, DemoPassword).state) == Children
    ensures !st.isLoading ==> Route(Logout(st)) == LoginScreen
  {
  }
}

=== FILE: search_page.dfy ===
/**
  The search page of src/pages/SearchPage.tsx: the same replace/append
  pagination as the category feed, behind a blank-query guard, plus the
  `hasSearched` flag, `clearSearch`, and the effect that follows the `q`
  search parameter of the URL.

  Each handler or effect is one atomic step; the network's answer is an input.
 */
module SearchPage {
  import opened Common
  import opened Text
  import opened ApiClient

  datatype SearchState = SearchState(
    query: string,            // the text in the search box
    movies: seq<Movie>,
    isLoading: bool,
    currentPage: int,
    totalPages: int,
    hasSearched: bool,
    urlQuery: Option<string>) // the `q` parameter of the page URL

  /** The state on mount: the box starts with the URL's `q` (or the empty string). */
  function Mount(urlQuery: Option<string>): SearchState {
    SearchState(urlQuery.GetOr(""), [], false, 1, 1, false, urlQuery)
  }

  /** A request sent to the search endpoint. */
  datatype SearchRequest = SearchRequest(query: string, page: int)

  function RequestConfigOf(r: SearchRequest): RequestConfig {
    SearchConfig(r.query, r.page)
  }

  /** Two searches share a cache entry exactly when they ask for the same page of the same query text. */
  lemma SearchRequestsNeverCollide(r1: SearchRequest, r2: SearchRequest)
    ensures CacheKey(RequestConfigOf(r1)) == CacheKey(RequestConfigOf(r2)) <==> r1 == r2
  {
    assert WellFormedUrl(SearchPath);
    CacheKeyInjective(RequestConfigOf(r1), RequestConfigOf(r2));
    IntToStringInjective(r1.page, r2.page);
  }

  datatype SearchStep = SearchStep(state: SearchState, request: Option<SearchRequest>)

  /** Typing into the search box. */
  function EditQuery(s: SearchState, text: string): SearchState {
    s.(query := text)
  }

  /**
    `searchMovies(searchQuery, page, reset)`: a blank query does nothing;
    otherwise it asks for `page` of `searchQuery` as given (untrimmed). A success
    replaces or extends the movies, takes the page and page count and marks the
    page as searched; a failure keeps all of them. Loading ends either way.
    There is no in-flight guard here.
   */
  function SearchMovies(s: SearchState, searchQuery: string, page: int, reset: bool,
                        response: Result<MovieListResponse, HttpError>): (r: SearchStep)
    ensures IsBlank(searchQuery) ==> r == SearchStep(s, None)
    ensures !IsBlank(searchQuery) ==>
      r.request == Some(SearchRequest(searchQuery, page)) && !r.state.isLoading
      && r.state.query == s.query && r.state.urlQuery == s.urlQuery
    ensures !IsBlank(searchQuery) && response.Ok? ==>
      var results := response.value.results;
      && (reset ==> r.state.movies == results)
      && (!reset ==> |r.state.movies| == |s.movies| + |results|
                     && r.state.movies[..|s.movies|] == s.movies
                     && r.state.movies[|s.movies|..] == results)
      && r.state.currentPage == page
      && r.state.totalPages == response.value.totalPages
      && r.state.hasSearched
    ensures !IsBlank(searchQuery) && response.Err? ==>
      r.state == s.(isLoading := false)
  {
    TrimSpec(searchQuery);
    if Trim(searchQuery) == "" then SearchStep(s, None)
    else
      var merged :=
        match response
        case Ok(resp) =>
          s.(totalPages := resp.totalPages,
             movies := if reset then resp.results else s.movies + resp.results,
             currentPage := page,
             hasSearched := true)
        case Err(_) => s;
      SearchStep(merged.(isLoading := false), Some(SearchRequest(searchQuery, page)))
  }

  /**
    Submitting the form: a blank box does nothing; otherwise the URL's `q`
    becomes the trimmed text and page 1 of the trimmed text replaces the results.
   */
  function HandleSearch(s: SearchState, response: Result<MovieListResponse, HttpError>): (r: SearchStep)
    ensures IsBlank(s.query) ==> r == SearchStep(s, None)
    ensures !IsBlank(s.query) ==>
      && r.request == Some(SearchRequest(Trim(s.query), 1))
      && r.state.urlQuery == Some(Trim(s.query))
      && r.state.query == s.query
      && !r.state.isLoading
    ensures !IsBlank(s.query) && response.Ok? ==>
      && r.state.movies == response.value.results && r.state.currentPage == 1
      && r.state.totalPages == response.value.totalPages && r.state.hasSearched
    ensures !IsBlank(s.query) && response.Err? ==>
      r.state == s.(urlQuery := Some(Trim(s.query)), isLoading := false)
  {
    var q := Trim(s.query);
    TrimSpec(s.query);
    if q == "" then SearchStep(s, None)
    else
      TrimIdempotent(s.query);
      TrimSpec(q);
      SearchMovies(s.(urlQuery := Some(q)), q, 1, true, response)
  }

  /**
    `clearSearch`: empties the box, the results and the URL's `q`, and forgets
    that a search happened. The page counters and the loading flag are kept.
   */
  function ClearSearch(s: SearchState): (r: SearchState)
    ensures r.query == "" && r.movies == [] && !r.hasSearched && r.urlQuery == None
    ensures r.currentPage == s.currentPage && r.totalPages == s.totalPages && r.isLoading == s.isLoading
  {
    s.(query := "", movies := [], hasSearched := false, urlQuery := None)
  }

  /**
    `loadMore`, as written: when more pages remain and nothing is loading, ask for
    the next page of whatever is in the search box now and append it.
   */
  function LoadMore(s: SearchState, response: Result<MovieListResponse, HttpError>): (r: SearchStep)
    ensures r.request.Some? <==> s.currentPage < s.totalPages && !s.isLoading && !IsBlank(s.query)
    ensures r.request.Some? ==> r.request.value == SearchRequest(s.query, s.currentPage + 1)
    ensures r.request.Some? && response.Ok? ==>
      && r.state.movies == s.movies + response.value.results
      && r.state.currentPage == s.currentPage + 1
      && r.state.totalPages == response.value.totalPages
    ensures r.request.Some? && response.Err? ==> r.state == s.(isLoading := false)
    ensures r.request.None? ==> r.state == s
    ensures s.movies <= r.state.movies
  {
    if s.currentPage < s.totalPages && !s.isLoading then SearchMovies(s, s.query, s.currentPage + 1, false, response)
    else SearchStep(s, None)
  }

  /**
    The `[searchParams]` effect: when the URL's `q` is non-empty and differs from
    the box, copy it into the box and search it from page 1. A `q` made only of
    whitespace is copied into the box but not searched.
   */
  function UrlEffect(s: SearchState, response: Result<MovieListResponse, HttpError>): (r: SearchStep)
    ensures r.request.Some? <==> s.urlQuery.Some? && !IsBlank(s.urlQuery.value) && s.urlQuery.value != s.query
    ensures r.request.Some? ==>
      && r.request.value == SearchRequest(s.urlQuery.value, 1)
      && r.state.query == s.urlQuery.value && r.state.urlQuery == s.urlQuery && !r.state.isLoading
    ensures r.request.Some? && response.Ok? ==>
      && r.state.movies == response.value.results && r.state.currentPage == 1
      && r.state.totalPages == response.value.totalPages && r.state.hasSearched
    ensures r.request.Some? && response.Err? ==>
      r.state == s.(query := s.urlQuery.value, isLoading := false)
    ensures r.request.None? ==>
      r.state == s || (s.urlQuery == Some(r.state.query) && IsBlank(r.state.query) && r.state == s.(query := r.state.query))
  {
    match s.urlQuery
    case Some(u) =>
      if u != "" && u != s.query then SearchMovies(s.(query := u), u, 1, true, response)
      else SearchStep(s, None)
    case None => SearchStep(s, None)
  }

  // ---------------------------------------------------------------------------
  // Properties over several steps
  // ---------------------------------------------------------------------------

  /** After `clearSearch`, load-more finds a blank box and does nothing, whatever the page counters say. */
  lemma ClearedSearchLoadsNothing(s: SearchState, response: Result<MovieListResponse, HttpError>)
    ensures LoadMore(ClearSearch(s), response) == SearchStep(ClearSearch(s), None)
    ensures UrlEffect(ClearSearch(s), response) == SearchStep(ClearSearch(s), None)
    ensures ClearSearch(ClearSearch(s)) == ClearSearch(s)
  {
  }

  /**
    When a submit changes the URL's `q`, the `[searchParams]` effect runs: a
    query with surrounding whitespace puts the trimmed text in the URL, which
    differs from the box, so the effect searches page 1 a second time; an
    already trimmed query is searched once.
   */
  lemma PaddedQuerySearchesTwice(s: SearchState, r1: Result<MovieListResponse, HttpError>,
                                 r2: Result<MovieListResponse, HttpError>)
    requires !IsBlank(s.query)
    requires s.urlQuery != Some(Trim(s.query))
    ensures var after := HandleSearch(s, r1).state;
      UrlEffect(after, r2).request.Some? <==> Trim(s.query) != s.query
    ensures var after := HandleSearch(s, r1).state;
      Trim(s.query) != s.query ==> UrlEffect(after, r2).request == Some(SearchRequest(Trim(s.query), 1))
  {
    var after := HandleSearch(s, r1).state;
    var t := Trim(s.query);
    TrimSpec(s.query);
    assert after.urlQuery == Some(t) && after.query == s.query;
    assert |t| > 0 && !IsWhitespace(t[0]);
    assert !IsBlank(t);
  }

  /** Load-more searches the live box: text typed after a search decides what the next page is a page of. */
  lemma LoadMoreFollowsTypedText(s: SearchState, text: string, response: Result<MovieListResponse, HttpError>)
    requires s.currentPage < s.totalPages && !s.isLoading && !IsBlank(text)
    ensures LoadMore(EditQuery(s, text), response).request == Some(SearchRequest(text, s.currentPage + 1))
  {
  }

  /**
    Landing on the page with a `q` parameter never searches: the box starts
    equal to `q`, so the effect's "differs from the box" test fails.
   */
  lemma MountWithQueryNeverSearches(q: string, response: Result<MovieListResponse, HttpError>)
    ensures UrlEffect(Mount(Some(q)), response) == SearchStep(Mount(Some(q)), None)
    ensures !Mount(Some(q)).hasSearched
  {
  }

  /** A concrete case: `/search?q=matrix` shows no results and never asks for any. */
  lemma MountMatrixExample(response: Result<MovieListResponse, HttpError>)
    ensures UrlEffect(Mount(Some("matrix")), response).request == None
  {
    MountWithQueryNeverSearches("matrix", response);
  }

  // ---------------------------------------------------------------------------
  // Corrected behaviour
  // ---------------------------------------------------------------------------

  /**
    Mounting as intended: a non-blank `q` in the URL is searched from page 1
    right away; otherwise nothing is requested.
   */
  function MountAndSearch(urlQuery: Option<string>, response: Result<MovieListResponse, HttpError>): (r: SearchStep)
    ensures r.request.Some? <==> urlQuery.Some? && !IsBlank(urlQuery.value)
    ensures r.request.Some? ==> r.request.value == SearchRequest(urlQuery.value, 1)
    ensures r.request.Some? && response.Ok? ==>
      r.state.hasSearched && r.state.movies == response.value.results && r.state.query == urlQuery.value
    ensures r.request.None? ==> r.state == Mount(urlQuery)
  {
    match urlQuery
    case Some(q) => SearchMovies(Mount(urlQuery), q, 1, true, response)
    case None => SearchStep(Mount(urlQuery), None)
  }

  /**
    Load-more as intended: the next page of the query whose results are shown
    (the URL's `q`), not of whatever has been typed since.
   */
  function LoadMoreShownQuery(s: SearchState, response: Result<MovieListResponse, HttpError>): (r: SearchStep)
    ensures r.request.Some? <==>
      s.currentPage < s.totalPages && !s.isLoading && s.urlQuery.Some? && !IsBlank(s.urlQuery.value)
    ensures r.request.Some? ==> r.request.value == SearchRequest(s.urlQuery.value, s.currentPage + 1)
    ensures r.request.Some? && response.Ok? ==>
      && r.state.movies == s.movies + response.value.results
      && r.state.currentPage == s.currentPage + 1
      && r.state.totalPages == response.value.totalPages
    ensures r.request.Some? && response.Err? ==> r.state == s.(isLoading := false)
    ensures r.request.None? ==> r.state == s
    ensures s.movies <= r.state.movies
  {
    if s.currentPage < s.totalPages && !s.isLoading && s.urlQuery.Some? then
      SearchMovies(s, s.urlQuery.value, s.currentPage + 1, false, response)
    else SearchStep(s, None)
  }

  /** Typing into the box no longer changes what load-more asks for. */
  lemma LoadMoreShownQueryIgnoresTyping(s: SearchState, text: string, response: Result<MovieListResponse, HttpError>)
    ensures LoadMoreShownQuery(EditQuery(s, text), response).request == LoadMoreShownQuery(s, response).request
  {
  }
}

=== FILE: text.dfy ===
/**
  String helpers standing in for the JavaScript string built-ins the application
  relies on: interpolating an integer into a template literal, `split`/`join` on a
  one-character separator, and `trim`.
 */
module Text {
  import opened Common

  // ---------------------------------------------------------------------------
  // Decimal rendering of integers, as `${n}` renders an integral number
  // ---------------------------------------------------------------------------

  predicate IsDigit(c: char) {
    '0' <= c <= '9'
  }

  predicate AllDigits(s: string) {
    forall i :: 0 <= i < |s| ==> IsDigit(s[i])
  }

  function DigitChar(d: nat): (c: char)
    requires d < 10
    ensures IsDigit(c) && c as int - '0' as int == d
  {
    ('0' as int + d) as char
  }

  /** Most significant digit first, no leading zeros, no sign. */
  function NatToString(n: nat): (s: string)
    ensures |s| >= 1 && AllDigits(s)
    decreases n
  {
    if n < 10 then [DigitChar(n)] else NatToString(n / 10) + [DigitChar(n % 10)]
  }

  /** The number a run of decimal digits denotes; the empty run denotes 0. */
  function DigitsValue(s: string): nat
    requires AllDigits(s)
  {
    if |s| == 0 then 0
    else
      assert IsDigit(s[|s| - 1]);
      10 * DigitsValue(s[..|s| - 1]) + (s[|s| - 1] as int - '0' as int)
  }

  /** A leading `-` for negative numbers, then the digits of the magnitude. */
  function IntToString(i: int): (s: string)
    ensures |s| >= 1
    ensures i >= 0 ==> AllDigits(s)
    ensures i < 0 ==> s[0] == '-' && AllDigits(s[1..])
  {
    if i < 0 then "-" + NatToString(-i) else NatToString(i)
  }

  /** Reads back what `IntToString` writes; anything else is rejected. */
  function ParseInt(s: string): Option<int> {
    if |s| >= 2 && s[0] == '-' && AllDigits(s[1..]) then Some(0 - DigitsValue(s[1..]))
    else if |s| >= 1 && AllDigits(s) then Some(DigitsValue(s))
    else None
  }

  lemma {:induction false} NatToStringRoundTrip(n: nat)
    ensures DigitsValue(NatToString(n)) == n
    decreases n
  {
    if n >= 10 {
      NatToStringRoundTrip(n / 10);
      var s := NatToString(n);
      assert s[..|s| - 1] == NatToString(n / 10);
    }
  }

  lemma IntToStringRoundTrip(i: int)
    ensures ParseInt(IntToString(i)) == Some(i)
  {
    var s := IntToString(i);
    if i < 0 {
      assert s[1..] == NatToString(-i);
      NatToStringRoundTrip(-i);
    } else {
      NatToStringRoundTrip(i);
    }
  }

  /** Distinct integers render as distinct strings. */
  lemma IntToStringInjective(i: int, j: int)
    ensures IntToString(i) == IntToString(j) ==> i == j
  {
    IntToStringRoundTrip(i);
    IntToStringRoundTrip(j);
  }

  // ---------------------------------------------------------------------------
  // split / join on a one-character separator
  // ---------------------------------------------------------------------------

  /** Number of occurrences of `c` in `s`. */
  function Count(s: string, c: char): nat {
    if |s| == 0 then 0 else (if s[0] == c then 1 else 0) + Count(s[1..], c)
  }

  /**
    `s.split(sep)`: the maximal separator-free pieces between occurrences of `sep`.
    As in JavaScript, the empty string splits into one empty piece, and adjacent
    separators produce empty pieces.
   */
  function Split(s: string, sep: char): (parts: seq<string>)
    ensures |parts| == Count(s, sep) + 1
    ensures forall i :: 0 <= i < |parts| ==> sep !in parts[i]
  {
    if |s| == 0 then [""]
    else
      var rest := Split(s[1..], sep);
      if s[0] == sep then [""] + rest
      else [[s[0]] + rest[0]] + rest[1..]
  }

  /** `parts.join(sep)`. */
  function Join(parts: seq<string>, sep: char): string {
    if |parts| == 0 then ""
    else if |parts| == 1 then parts[0]
    else parts[0] + [sep] + Join(parts[1..], sep)
  }

  /** Joining the pieces of a split gives back the original string. */
  lemma {:induction false} JoinSplit(s: string, sep: char)
    ensures Join(Split(s, sep), sep) == s
    decreases |s|
  {
    if |s| > 0 {
      var rest := Split(s[1..], sep);
      JoinSplit(s[1..], sep);
      if s[0] == sep {
        assert ([""] + rest)[1..] == rest;
      } else {
        JoinConsChar(s[0], rest, sep);
      }
    }
  }

  /** Prepending a character to the first piece prepends it to the joined string. */
  lemma JoinConsChar(c: char, parts: seq<string>, sep: char)
    requires |parts| >= 1
    ensures Join([[c] + parts[0]] + parts[1..], sep) == [c] + Join(parts, sep)
  {
    var ps := [[c] + parts[0]] + parts[1..];
    assert ps[0] == [c] + parts[0];
    if |parts| > 1 {
      assert ps[1..] == parts[1..];
      calc {
        Join(ps, sep);
        ps[0] + [sep] + Join(ps[1..], sep);
        ([c] + parts[0]) + [sep] + Join(parts[1..], sep);
        [c] + (parts[0] + [sep] + Join(parts[1..], sep));
      }
    }
  }

  lemma {:induction false} SplitWithoutSeparator(p: string, sep: char)
    requires sep !in p
    ensures Split(p, sep) == [p]
    decreases |p|
  {
    if |p| > 0 {
      assert p == [p[0]] + p[1..];
      SplitWithoutSeparator(p[1..], sep);
    }
  }

  lemma {:induction false} SplitAfterPiece(p: string, t: string, sep: char)
    requires sep !in p
    ensures Split(p + [sep] + t, sep) == [p] + Split(t, sep)
    decreases |p|
  {
    var s := p + [sep] + t;
    if |p| == 0 {
      assert s[1..] == t;
    } else {
      assert s[1..] == p[1..] + [sep] + t;
      SplitAfterPiece(p[1..], t, sep);
      assert [p[0]] + p[1..] == p;
    }
  }

  /** Splitting a join of separator-free pieces gives back the pieces. */
  lemma {:induction false} SplitJoin(parts: seq<string>, sep: char)
    requires |parts| >= 1
    requires forall i :: 0 <= i < |parts| ==> sep !in parts[i]
    ensures Split(Join(parts, sep), sep) == parts
    decreases |parts|
  {
    if |parts| == 1 {
      SplitWithoutSeparator(parts[0], sep);
    } else {
      SplitJoin(parts[1..], sep);
      SplitAfterPiece(parts[0], Join(parts[1..], sep), sep);
    }
  }

  /** The first `k` elements of `xs`, or all of them when there are fewer: `xs.slice(0, k)`. */
  function Take<T>(xs: seq<T>, k: nat): (r: seq<T>)
    ensures |r| == Min(k, |xs|) && r <= xs
  {
    if |xs| <= k then xs else xs[..k]
  }

  /**
    The longest prefix of `s` that holds at most `n` separators, i.e. `s` cut just
    before its (n+1)-th separator. An independent description of
    `Join(Take(Split(s, sep), n + 1), sep)`.
   */
  function PrefixBefore(s: string, sep: char, n: nat): string {
    if |s| == 0 then ""
    else if s[0] == sep then (if n == 0 then "" else [sep] + PrefixBefore(s[1..], sep, n - 1))
    else [s[0]] + PrefixBefore(s[1..], sep, n)
  }

  lemma {:induction false} JoinTakeSplit(s: string, sep: char, n: nat)
    ensures Join(Take(Split(s, sep), n + 1), sep) == PrefixBefore(s, sep, n)
    decreases |s|
  {
    if |s| > 0 {
      var rest := Split(s[1..], sep);
      if s[0] == sep {
        if n > 0 {
          JoinTakeSplit(s[1..], sep, n - 1);
          var t := Take([""] + rest, n + 1);
          assert t == [""] + Take(rest, n);
          assert t[1..] == Take(rest, n);
        }
      } else {
        JoinTakeSplit(s[1..], sep, n);
        var t := Take([[s[0]] + rest[0]] + rest[1..], n + 1);
        var u := Take(rest, n + 1);
        assert t == [[s[0]] + u[0]] + u[1..];
        JoinConsChar(s[0], u, sep);
      }
    }
  }

  lemma {:induction false} PrefixBeforeIsPrefix(s: string, sep: char, n: nat)
    ensures PrefixBefore(s, sep, n) <= s
    ensures Count(PrefixBefore(s, sep, n), sep) <= n
    decreases |s|
  {
    if |s| > 0 {
      if s[0] == sep {
        if n > 0 {
          PrefixBeforeIsPrefix(s[1..], sep, n - 1);
          assert ([sep] + PrefixBefore(s[1..], sep, n - 1))[1..] == PrefixBefore(s[1..], sep, n - 1);
        }
      } else {
        PrefixBeforeIsPrefix(s[1..], sep, n);
        assert ([s[0]] + PrefixBefore(s[1..], sep, n))[1..] == PrefixBefore(s[1..], sep, n);
      }
    }
  }

  /**
    With at most `n` separators nothing is cut; with more, the cut falls exactly
    before a separator and keeps `n` of them.
   */
  lemma {:induction false} PrefixBeforeCut(s: string, sep: char, n: nat)
    ensures Count(s, sep) <= n ==> PrefixBefore(s, sep, n) == s
    ensures Count(s, sep) > n ==>
      var p := PrefixBefore(s, sep, n);
      |p| < |s| && s[|p|] == sep && Count(p, sep) == n
    decreases |s|
  {
    if |s| > 0 {
      var p := PrefixBefore(s, sep, n);
      if s[0] == sep {
        if n > 0 {
          PrefixBeforeCut(s[1..], sep, n - 1);
          assert p[1..] == PrefixBefore(s[1..], sep, n - 1);
          assert [s[0]] + s[1..] == s;
        }
      } else {
        PrefixBeforeCut(s[1..], sep, n);
        assert p[1..] == PrefixBefore(s[1..], sep, n);
        assert [s[0]] + s[1..] == s;
      }
    }
  }

  // ---------------------------------------------------------------------------
  // trim
  // ---------------------------------------------------------------------------

  /**
    The characters `String.prototype.trim` removes: ECMAScript WhiteSpace
    (tab, vertical tab, form feed, space, no-break space, byte order mark and
    the Unicode space separators) and LineTerminator (LF, CR, LS, PS).
   */
  predicate IsWhitespace(c: char) {
    c == '\t' || c == '\n' || c == '\U{000B}' || c == '\U{000C}' || c == '\r' || c == ' '
    || c == '\U{00A0}' || c == '\U{1680}' || ('\U{2000}' <= c <= '\U{200A}')
    || c == '\U{2028}' || c == '\U{2029}' || c == '\U{202F}' || c == '\U{205F}'
    || c == '\U{3000}' || c == '\U{FEFF}'
  }

  predicate IsBlank(s: string) {
    forall i :: 0 <= i < |s| ==> IsWhitespace(s[i])
  }

  function TrimStart(s: string): (r: string)
    ensures |r| <= |s| && r == s[|s| - |r|..]
    ensures IsBlank(s[..|s| - |r|])
    ensures |r| > 0 ==> !IsWhitespace(r[0])
    ensures |r| == 0 <==> IsBlank(s)
  {
    if |s| > 0 && IsWhitespace(s[0]) then TrimStart(s[1..]) else s
  }

  function TrimEnd(s: string): (r: string)
    ensures |r| <= |s| && r == s[..|r|]
    ensures IsBlank(s[|r|..])
    ensures |r| > 0 ==> !IsWhitespace(r[|r| - 1])
    ensures |r| == 0 <==> IsBlank(s)
  {
    if |s| > 0 && IsWhitespace(s[|s| - 1]) then TrimEnd(s[..|s| - 1]) else s
  }

  /** `s.trim()`. */
  function Trim(s: string): string {
    TrimEnd(TrimStart(s))
  }

  /**
    What `trim` promises: the result is a contiguous slice of the input with
    only whitespace cut off before and after it, it neither starts nor ends
    with whitespace, and it is empty exactly when the input is blank (the test
    `!s.trim()` in the source).
   */
  lemma TrimSpec(s: string)
    ensures exists i, j :: 0 <= i <= j <= |s| && Trim(s) == s[i..j] && IsBlank(s[..i]) && IsBlank(s[j..])
    ensures |Trim(s)| > 0 ==> !IsWhitespace(Trim(s)[0]) && !IsWhitespace(Trim(s)[|Trim(s)| - 1])
    ensures Trim(s) == "" <==> IsBlank(s)
  {
    var a := TrimStart(s);
    var r := TrimEnd(a);
    var i := |s| - |a|;
    var j := i + |r|;
    assert a == s[i..];
    assert r == a[..|r|];
    assert r == s[i..j];
    assert a[|r|..] == s[j..];
    assert IsBlank(s[..i]) && IsBlank(s[j..]);
    if |r| > 0 {
      assert r[0] == a[0];
    }
    if |a| > 0 {
      assert !IsWhitespace(a[0]);
      assert !IsBlank(a);
    }
  }

  lemma TrimIdempotent(s: string)
    ensures Trim(Trim(s)) == Trim(s)
  {
    TrimSpec(s);
  }
}
